=== FILE: README.md ===
# Impact360 payments and ticketing: a Dafny model

This project models the logic core of the Impact360 event site and proves properties about it. The core has four parts:

- **The payment-gateway backend** (`backend/server.js`):
  - the cached PesaPal access token;
  - the IPN (instant payment notification) id, registered or looked up;
  - the create-payment route, which validates the request, formats the phone number, splits the name and builds the order;
  - the payment-status route;
  - the two IPN listener routes.
- **The subscription page** (`src/components/Subscription.jsx`):
  - the two extractors that read the transaction code and the amount out of a pasted M-Pesa SMS;
  - the plan, payment and ticket-form modals;
  - the record a ticket submission writes.
- **The admin dashboard** (`src/components/admin.jsx`):
  - the status filter and case-insensitive search;
  - the counters;
  - approve, reject, edit and delete over the submissions;
  - the modals that guard them.
- **The hero section** (`src/HeroSection.jsx`): the slug a navigation item becomes, the slideshow index, and the mobile menu.

Everything outside the process becomes an input. This covers:

- the gateway's replies to each endpoint (`Gateway.Replies`);
- the clock (`now`, `nowMs`, `nowIso`);
- the random suffixes;
- the confirmation dialog;
- the outcome of each store write (`Moderation.Env`, `TicketFlow.Settle`);
- the ids of the sections present on the page.

Each handler is a pure function. A backend handler returns the new process cache, the gateway calls it made in order, and its response. A page handler returns the new page state.

Modules:

| module | file | models |
|---|---|---|
| `Wrappers` | wrappers.dfy | `Option` (JavaScript's `undefined`) and `Result` (a value or what was thrown) |
| `Text` | text.dfy | JavaScript's `\s`, `\d` and `\w` classes, ASCII case mapping, `replace(/\s+/g,'')`, `includes`, `split`/`join` on one character, `Number.prototype.toString` |
| `Orders` | orders.dfy | phone formatting, name split, merchant reference, the order payload |
| `Gateway` | gateway.dfy | `getAccessToken`, `registerIPN`, `getExistingIPN`, and the create-payment, payment-status and IPN routes |
| `MpesaSms` | mpesasms.dfy | `extractMpesaCode`, `extractAmount` as written, and the corrected amount reader |
| `TicketFlow` | ticketflow.dfy | the subscription page's modals and `handleTicketFormSubmit` |
| `Moderation` | moderation.dfy | `filteredSubmissions`, `stats`, and the dashboard's handlers and modals |
| `Hero` | hero.dfy | `scrollToSection`'s slug, the slideshow, the menu |

The regular expressions are written out as matchers that follow JavaScript's semantics. The search is leftmost. Alternatives are tried in order. Quantifiers are greedy. `\b` is a word boundary and the `i` flag ignores case.

The model follows the code, including where it does less than a reader might expect:

- Merchant references are not made unique by the code: they are built from `Date.now()` and `Math.random()`. The model proves only that a reference determines its clock value and suffix (`Orders.MerchantReferenceInjective`).
- Concurrent token refreshes are not coalesced: two requests that find no valid token each ask for one.
- The POST IPN route only validates the tracking id and acknowledges it. Unlike the GET route, it makes no status query (`Gateway.IpnPost`).
- The create-payment route does not check that the amount is a positive number. It checks only that the amount is present and non-empty (`Gateway.HasRequiredFields`).

## Model

| member | source | states |
|---|---|---|
| Text.RemoveWhitespaceOfClean | backend/server.js:249 | Removing whitespace from text that has none leaves it unchanged. |
| Text.JoinSplit | backend/server.js:288 | Joining the pieces of `split(sep)` with `sep` gives back the original string. |
| Text.SplitJoin | backend/server.js:288 | Splitting a join of separator-free pieces gives back those pieces. |
| Text.DecimalRoundTrip | backend/server.js:257 | Reading the decimal digits of `n.toString()` gives back `n`. |
| Text.DecimalInjective | backend/server.js:257 | Two clock values with the same decimal rendering are equal. |
| Orders.FormatPhone | backend/server.js:249-254 | The result starts with `254` and has no whitespace. It is the input with its whitespace removed and its prefix rewritten. A leading `0` is replaced by `254`. Otherwise a number already starting with `254` is kept as is, and any other number gets `254` in front. |
| Orders.FormatPhoneLocal | backend/server.js:250-251 | A number whose cleaned form begins with `0` has exactly that `0` replaced by `254`. |
| Orders.FormatPhoneIdempotent | backend/server.js:249-254 | Formatting an already formatted number changes nothing. |
| Orders.FormatPhoneExample | backend/server.js:249-254 | `0712345678` becomes `254712345678`. |
| Orders.SplitName | backend/server.js:286-288 | The first name is the text before the first space, or the whole name when that text is empty. The last name is everything after the first space. A name without a space has an empty last name. |
| Orders.SplitNameRejoins | backend/server.js:286-288 | For a name that does not start with a space, first name + space + last name gives back the full name. |
| Orders.SplitNameOfTwoParts | backend/server.js:286-288 | A non-empty first word without spaces, a space, then any rest: the first name is that word and the last name is the rest. |
| Orders.SplitNameExample | backend/server.js:286-288 | `Jane Doe` splits into `Jane` and `Doe`. |
| Orders.SplitNameThreeWordsExample | backend/server.js:286-288 | `Mary Jane Doe` splits into `Mary` and `Jane Doe`: later pieces are joined again with single spaces. |
| Orders.MerchantReferenceRoundTrip | backend/server.js:257 | Parsing a merchant reference gives back the clock value and the random suffix it was built from. |
| Orders.MerchantReferencePieces | backend/server.js:257 | Split at `_`, a reference is `IMPACT360`, the clock's digits, then the suffix's own pieces. |
| Orders.MerchantReferenceInjective | backend/server.js:257 | Two references are equal only if their clock values and suffixes are. |
| Orders.CallbackUrl | backend/server.js:270-272 | With a truthy frontend URL, the callback URL is that URL followed by `/payment-callback`. Otherwise it is `http://localhost:5173/payment-callback`. |
| Orders.Description | backend/server.js:279 | The description is `Impact360 <plan> Subscription - <period>`, with the period rendered `undefined` when it is absent. |
| Orders.BuildOrder | backend/server.js:275-296 | The order carries the reference, the amount as given, `KES`, `KE`, the email, the resolved notification id, the phone number as `FormatPhone` gives it (so `254…` and free of whitespace), the split name, an empty middle name, the callback URL for the configured frontend and the plan-and-period description. |
| Gateway.Boot | backend/server.js:45-47 | At start there is no usable token at any time. The cached IPN id is the configured one exactly when that id is non-empty. |
| Gateway.TokenRequestsAppend | backend/server.js:50-96 | The count of token requests adds up over concatenated call traces. |
| Gateway.GetAccessToken | backend/server.js:50-96 | A valid cached token (present, expiry set, `now < expiry`) is returned with no gateway call. Otherwise exactly one token request is made. The step succeeds exactly when the reply carries a non-empty token; that token is then cached until `now + 240000` ms. Any failure is "Failed to authenticate with PesaPal" and leaves no usable token. A token-less reply empties the cached token. The IPN id is untouched. |
| Gateway.FreshTokenServedUntilExpiry | backend/server.js:52-55 | After a refresh, later calls before the four minutes are up get the same token with no call. From then on they make a token request. |
| Gateway.TokenlessReplyForcesRefetch | backend/server.js:75-80 | A reply without a token fails the call, and the next call requests a token again. |
| Gateway.FindByUrl | backend/server.js:159 | `find`: the returned index is that of the first entry whose URL equals the configured one, or the list length when none does. |
| Gateway.TryRegister | backend/server.js:106-131 | At most one token request, and none when the cached token is valid. A successful registration caches the returned id. A failure leaves the cached id as it was. The list is never fetched here. |
| Gateway.GetExistingIpn | backend/server.js:144-174 | A success returns and caches the id of the first entry with the configured URL. If no entry matches, the error is the "Could not find matching IPN URL…" error. A failure leaves the cached id as it was. A refused list request gives the gateway's error. A failed token step gives the authentication error, with no list request. |
| Gateway.RegisterIpnId | backend/server.js:99-141 | A cached or configured id is returned with no call. A registration returns its id. A 409, or a message containing "already registered", falls back to the list lookup and returns its result; any other registration error is rethrown. The list is fetched only after such a conflict. The id returned is the id cached. There is at most one token request. A failed token step gives the authentication error after the one token request. A refused list request after a conflict gives the list's error. |
| Gateway.PaymentFailure | backend/server.js:335-339 | The 500 body carries the error. Its message is the gateway's when the fault is a gateway reply with a non-empty message, and "Failed to create payment" in every other case. |
| Gateway.CreatePayment | backend/server.js:237-341 | Status 400 exactly when plan, amount, fullName, phone or email is missing or empty; then no gateway call is made and the cache is unchanged. The order is submitted exactly when the request is complete, a token can be had (cached or issued) and the IPN id can be resolved. Status 200 exactly when, in addition, the gateway accepts the order, and the body is its receipt. A refused order gives 500 with the gateway's failure; a failed token step gives 500 with "Failed to create payment". All calls before the last are token or IPN calls, at most one of them a token request. A submitted order matches the request, the cached IPN id and the configured frontend: its reference, amount, description, callback URL, currency, country, phone, name and email. |
| Gateway.SubmitOrderStep | backend/server.js:303-339 | The order submission adds one call after the preparatory ones, with no new token request. It answers 200 with the receipt exactly when the gateway accepts the order, and 500 otherwise. |
| Gateway.Prepare | backend/server.js:259-268 | The token and IPN steps succeed exactly when a token can be had and the IPN id can be resolved: it is cached, registered, or, after a conflict, found in the list. A failed token step throws the authentication error. A cached id is returned as is. Otherwise the registration's outcome is passed on: the id returned, the error of a non-conflict refusal, or after a conflict the list's matching id, the no-match error or the list's failure. At most one token request and only token and IPN calls; a resolved id is the one cached. |
| Gateway.OrderFor | backend/server.js:275-296 | The order built for a valid request fits it: reference, amount, description, callback URL, currency, country, phone, name, email and the cached IPN id. |
| Gateway.InitiatePayment | backend/server.js:259-340 | For a complete request: the order is submitted exactly when a token can be had and the IPN id resolved, after at most one token request. The response is 200 with the receipt exactly when the gateway then accepts the order. A refused order gives 500 with the gateway's failure, and a failed preparation gives 500 with its fault. |
| Gateway.PaymentStatus | backend/server.js:344-389 | Status 400 with no call when the tracking id is empty. Status 200 exactly when a token is obtainable and the gateway reports a status; the body is the snapshot unchanged and the last call is the status query for that id. Otherwise 500. |
| Gateway.IpnGet | backend/server.js:191-234 | Status 400 with no call when `OrderTrackingId` is missing or empty. Status 200 `OK` exactly when a token is obtainable and the status query answers; the last call is that query. Otherwise 500. |
| Gateway.IpnAckIgnoresStatus | backend/server.js:214-229 | The GET IPN route's response does not depend on which status the gateway reports. |
| Gateway.IpnPost | backend/server.js:18-29 | The POST IPN route makes no call and leaves the cache alone. It answers 200 exactly when `OrderTrackingId` is present, otherwise 400. |
| Gateway.CachedIpnIdReused | backend/server.js:263-267 | Once an IPN id is cached, a payment request neither registers nor lists IPNs. |
| MpesaSms.LetterCodeIsMixedCode | src/components/Subscription.jsx:63 | A match of the first alternative (two capitals, eight digits) is also a match of the second (ten capitals or digits). |
| MpesaSms.FindCode | src/components/Subscription.jsx:63 | The search returns the leftmost position where the code expression matches as a whole word, or reports that there is none. |
| MpesaSms.ExtractMpesaCode | src/components/Subscription.jsx:62-65 | The result is `UNKNOWN` exactly when the code expression matches nowhere. Otherwise it is the ten characters of the leftmost match, all capitals or digits. |
| MpesaSms.ExampleIsSample | src/components/Subscription.jsx:566 | The example SMS in the message field's placeholder, followed by any text, begins like the sample: code, ` Confirmed. `, `Ksh2,099.00`, ` sent`. |
| MpesaSms.SampleCode | src/components/Subscription.jsx:566 | Any message that starts like the placeholder SMS (`MpesaSms.ExampleIsSample`) yields the code `SH12345678`. |
| MpesaSms.SkipSpaces | src/components/Subscription.jsx:69 | `\s*` consumes exactly the whitespace run at that point. |
| MpesaSms.MatchAlternative | src/components/Subscription.jsx:69 | A match at `p` begins with one of the alternatives (case ignored), and its capture starts after that alternative and the following whitespace. |
| MpesaSms.SearchFrom | src/components/Subscription.jsx:69 | The search returns the leftmost position where the amount expression matches, or reports that there is none. |
| MpesaSms.RemoveCommasAppend | src/components/Subscription.jsx:71 | `replace(/,/g,'')` distributes over concatenation. |
| MpesaSms.RemoveCommasOfDigits | src/components/Subscription.jsx:71 | Removing commas leaves a run of digits unchanged. |
| MpesaSms.RemoveCommasOfNumRun | src/components/Subscription.jsx:71 | Removing the commas from a run of digits and commas leaves only digits. |
| MpesaSms.CaptureIsAmountText | src/components/Subscription.jsx:69-71 | The captured `[\d,]+\.?\d*` without its commas is digits with at most one decimal point. |
| MpesaSms.Fallback | src/components/Subscription.jsx:73 | Without a match the amount is the plan's price without commas, or `0` when there is no plan or that is empty. |
| MpesaSms.EmptyAlternativeMatches | src/components/Subscription.jsx:69 | Because the last alternative is empty, the expression matches at any position followed by optional whitespace and a digit or comma. |
| MpesaSms.CaptureIsFirstNumber | src/components/Subscription.jsx:69 | The capture starts at the first digit or comma of the message, whatever currency marker appears later. |
| MpesaSms.ExtractAmount | src/components/Subscription.jsx:68-74 | As written: when the message holds any digit or comma, the amount is the number starting at the first of them, without commas. Otherwise it is the plan-price fallback. |
| MpesaSms.SampleAmountAsWritten | src/components/Subscription.jsx:566 | As written, any message that starts like the placeholder SMS yields the amount `12345678`, the transaction code's digits, whatever the plan price. |
| MpesaSms.ExtractPaidAmount | src/components/Subscription.jsx:68-74 | Corrected: the amount is read only after a `Ksh`/`KES` marker. With no marker it is the plan-price fallback. |
| MpesaSms.PaidAmountFollowsMarker | src/components/Subscription.jsx:69-71 | The corrected amount is the number right after the leftmost currency marker, followed by optional whitespace, without commas. |
| MpesaSms.SampleAmountIntended | src/components/Subscription.jsx:566 | The corrected reader yields `2099.00` for any message that starts like the placeholder SMS, whatever the plan price. |
| TicketFlow.PlansFor | src/components/Subscription.jsx:31-52 | Each of the four billing periods lists exactly three plans, Student, Pro and Premium in that order, each with a name and a price and labelled with its period (`mo`, `3mo`, `6mo`, `yr`). Any other key lists none. |
| TicketFlow.InitialPage | src/components/Subscription.jsx:12-23 | The page starts on the monthly plans with no modal open, nothing processing and an empty form. |
| TicketFlow.SubscribeClick | src/components/Subscription.jsx:76-79 | Subscribing remembers the plan and opens its payment modal. The form and period are untouched. |
| TicketFlow.ProceedToTicketForm | src/components/Subscription.jsx:91-94 | The payment modal closes and the ticket form opens for the same plan. |
| TicketFlow.SetField | src/components/Subscription.jsx:96-98 | Writing a field sets that field to the value and leaves the other fields alone. |
| TicketFlow.ChangeField | src/components/Subscription.jsx:96-98 | Typing changes one form field and nothing else on the page. |
| TicketFlow.RequestOf | src/components/Subscription.jsx:105-119 | The record copies the four form fields, is pending and carries the selected period. Its code is what `extractMpesaCode` reads from the SMS: `UNKNOWN` or ten characters. It names the plan, or `General` without one. |
| TicketFlow.EmailParts | src/components/Subscription.jsx:510-514 | An address made of a valid local part, `@` and a domain passes the `type="email"` check exactly when the domain is valid (section 4.10.5.1.5 of the HTML Living Standard). |
| TicketFlow.ValidEmailSplits | src/components/Subscription.jsx:510-514 | Every address that passes the check is a valid local part, `@` and a valid domain. |
| TicketFlow.DotlessDomain | src/components/Subscription.jsx:510-514 | A single valid label is a valid domain, so `a@b` passes. |
| TicketFlow.DomainCons | src/components/Subscription.jsx:510-514 | A valid label, a dot and a valid domain make a valid domain. |
| TicketFlow.EmptyDomainRejected | src/components/Subscription.jsx:510-514 | An address with nothing after its `@` is rejected. |
| TicketFlow.PlaceholderEmailValid | src/components/Subscription.jsx:521 | The e-mail field's placeholder, `your.email@example.com`, is a valid address. |
| TicketFlow.BeginSubmit | src/components/Subscription.jsx:100-119 | Submitting marks the page as processing and builds the record with the amount `extractAmount` reads, as written. When the SMS holds a digit or comma, the amount is the first number in it without commas, a well-formed amount. Otherwise it is the plan's price without commas, or `0`. |
| TicketFlow.BeginSubmitCorrected | src/components/Subscription.jsx:100-119 | The same step with the corrected amount: the plan-price fallback when the SMS has no `Ksh`/`KES` marker followed by a number, otherwise a well-formed amount. |
| TicketFlow.CorrectedChangesOnlyAmount | src/components/Subscription.jsx:105-119 | The corrected step writes the same record except, possibly, its amount. |
| TicketFlow.ExampleTicketAmounts | src/components/Subscription.jsx:106 | For the placeholder SMS, the record as written carries the code `SH12345678` and the amount `12345678`; the corrected step carries `2099.00`. |
| TicketFlow.FinishSubmit | src/components/Subscription.jsx:138-156 | Processing ends. A stored record clears the form, closes the ticket form and forgets the plan. A failed write leaves the page as it was. |
| TicketFlow.CloseModals | src/components/Subscription.jsx:159-171 | While processing nothing changes. Otherwise every modal closes, the plan is forgotten and the form is cleared. |
| TicketFlow.Dispatch | src/components/Subscription.jsx:459-590 | A submit from the open ticket form with nothing in flight writes a record exactly when every field is filled and the e-mail field holds a valid address. The record written is the submit handler's record, pending, and the page is the handler's processing page. Nothing else writes a record. Form actions do nothing while no modal is open. |
| TicketFlow.DispatchPreservesInv | src/components/Subscription.jsx:12-23 | Every event keeps the page invariant: a valid period, at most one modal, a plan exactly when a modal is open, a plan of the selected period, processing only in the ticket form, and an empty form outside it. |
| TicketFlow.NoDoubleSubmission | src/components/Subscription.jsx:465 | While a submission is in flight, neither another submit nor closing the modal does anything. |
| TicketFlow.WrittenRequestNamesPlan | src/components/Subscription.jsx:115 | A written record names a plan of the recorded period, never `General`. |
| TicketFlow.StoredSubmissionResets | src/components/Subscription.jsx:138-146 | A stored submission leaves no modal open, the form empty, the period unchanged and the invariant intact. |
| TicketFlow.FailedSubmissionKeepsForm | src/components/Subscription.jsx:147-156 | After a failed write the page is back as it was, and the same form can be submitted again. |
| Moderation.SameIdSameSubmission | src/components/admin.jsx:68-72 | In a list with unique document ids, two submissions with the same id are the same. |
| Moderation.Select | src/components/admin.jsx:249-255 | `filter` keeps exactly the submissions meeting the criterion, in their original order. |
| Moderation.SelectFusion | src/components/admin.jsx:249-255 | Filtering by status and then by search equals filtering once by both. |
| Moderation.FilteredSubmissions | src/components/admin.jsx:249-255 | A submission is listed exactly when its status passes the filter (`all` passes everything) and its name, email or transaction code contains the search term, case ignored. The list keeps the original order. |
| Moderation.AllFilterKeepsEverything | src/components/admin.jsx:250 | The `all` filter keeps every submission. |
| Moderation.EmptySearch | src/components/admin.jsx:251-255 | An empty search term matches every submission that has a name, email or code field. |
| Moderation.SearchIgnoresCase | src/components/admin.jsx:251-255 | Searching for the capitalised term finds the same submissions. |
| Moderation.ComputeStats | src/components/admin.jsx:257-262 | Each counter equals the length of the list under that status filter. The total is the number of submissions and bounds the sum of the three counters. |
| Moderation.CountIsTabLength | src/components/admin.jsx:257-260 | A status count equals the length of the list filtered by that status. |
| Moderation.CountStatusesBounded | src/components/admin.jsx:257-261 | The pending, approved and rejected counts together never exceed the total. |
| Moderation.UpdateById | src/components/admin.jsx:148 | `updateDoc`: the document with the id gets the patch's fields, with every other field kept. Every other document, every id and the order are unchanged. |
| Moderation.RemoveById | src/components/admin.jsx:223 | `deleteDoc`: exactly the documents with other ids remain, in order. |
| Moderation.TicketId | src/components/admin.jsx:146 | A ticket id starts with `TKT-`. |
| Moderation.TicketIdPieces | src/components/admin.jsx:146 | Split at `-`, a ticket id is `TKT`, the clock's digits and the capitalised random digits. |
| Moderation.TicketIdsDifferAcrossTime | src/components/admin.jsx:146 | Approvals at different milliseconds get different ticket ids. |
| Moderation.ApprovalPatch | src/components/admin.jsx:148-154 | An approval writes exactly status `approved`, the approval time, the admin's email, the ticket id and the update time. Both times are the clock reading. |
| Moderation.RejectionPatch | src/components/admin.jsx:174-180 | A rejection writes exactly status `rejected`, the time, the admin's email, the reason and the update time. Both times are the clock reading. |
| Moderation.EditPatch | src/components/admin.jsx:202-206 | An edit writes the edited fields as typed plus the update time (the clock reading) and the editor's email. It never writes the status. |
| Moderation.InitialDashboard | src/components/admin.jsx:32-41 | The dashboard opens on the pending filter with nothing selected and satisfies the invariant. |
| Moderation.Approve | src/components/admin.jsx:139-164 | Without confirmation nothing changes. A stored approval applies the approval patch to that document and closes its details with a success notice. A failed write shows the error notice and changes nothing else. |
| Moderation.Reject | src/components/admin.jsx:166-192 | A blank reason only shows "Please provide a rejection reason". A stored rejection applies the rejection patch to the selected document, closes the modal, clears the reason and the selection and shows "Submission rejected"; nothing else on the dashboard changes. Otherwise only the error notice appears. |
| Moderation.Edit | src/components/admin.jsx:194-218 | Missing name, email or phone only shows "Please fill in all required fields". A stored edit merges the edit data into the selected document, closes the modal, clears the edit data and the selection and shows "Submission updated successfully"; nothing else on the dashboard changes. Otherwise only the error notice appears. |
| Moderation.Delete | src/components/admin.jsx:220-233 | A stored delete removes exactly the selected document, closes the modal, clears the selection and shows "Submission deleted successfully"; nothing else on the dashboard changes. Otherwise only the error notice appears. |
| Moderation.EditDataOf | src/components/admin.jsx:237-245 | The edit data holds exactly the seven editable fields the submission has, with their values. |
| Moderation.OpenEditModal | src/components/admin.jsx:235-247 | Opening the editor selects the submission, loads its editable fields and shows the modal, without touching the list. |
| Moderation.Dispatch | src/components/admin.jsx:415-915 | An action that does not write to the store leaves the list unchanged. |
| Moderation.UpdateKeepsUniqueIds | src/components/admin.jsx:148 | An update keeps document ids unique. |
| Moderation.SelectKeepsUniqueIds | src/components/admin.jsx:249-255 | Filtering keeps document ids unique. |
| Moderation.DispatchPreservesInv | src/components/admin.jsx:32-41 | Every action keeps the invariant. Ids stay unique and at most one of the reject, edit and delete modals is open. Any open modal has a selection from the list. The reject modal is only for pending submissions and the reason is empty when it is closed. The edit data holds only editable fields and is empty when the editor is closed. |
| Moderation.NavigationKeepsInv | src/components/admin.jsx:415-915 | Filtering, searching, selecting and the modals' open, cancel and typing actions keep the invariant. |
| Moderation.ApproveKeepsInv | src/components/admin.jsx:139-164 | Approving from the table or from the details keeps the invariant. |
| Moderation.RejectKeepsInv | src/components/admin.jsx:166-192 | Confirming a rejection keeps the invariant. |
| Moderation.EditKeepsInv | src/components/admin.jsx:194-218 | Saving an edit keeps the invariant. |
| Moderation.DeleteKeepsInv | src/components/admin.jsx:220-233 | Confirming a deletion keeps the invariant. |
| Moderation.UpdateAdvances | src/components/admin.jsx:148 | An update that moves a pending submission to approved or rejected, or writes no status, changes no other status. |
| Moderation.Unchanged | src/components/admin.jsx:32 | An unchanged list advances no status. |
| Moderation.DispatchAdvancesStatuses | src/components/admin.jsx:523 | Any action leaves every listed submission with its old status, or moves it from pending to approved or rejected. |
| Moderation.ApproveAdvances | src/components/admin.jsx:523-532 | Approving moves only a pending submission forward. |
| Moderation.ApproveTargetAdvances | src/components/admin.jsx:148-154 | Approving a pending submission in the list advances statuses only. |
| Moderation.RejectAdvances | src/components/admin.jsx:174-180 | Rejecting moves only the pending selected submission forward. |
| Moderation.EditAdvances | src/components/admin.jsx:202-206 | Editing never changes a status. |
| Moderation.DeleteAdvances | src/components/admin.jsx:223 | Deleting leaves the remaining statuses unchanged. |
| Moderation.ApprovalIsFinal | src/components/admin.jsx:885 | An approved submission stays approved through any action. |
| Moderation.ApprovedStays | src/components/admin.jsx:885 | When statuses only advance and ids are unique, an approved submission is still approved afterwards. |
| Moderation.BlankReasonNeverRejects | src/components/admin.jsx:167-170 | With a blank reason, confirming a rejection writes nothing. |
| Hero.DropRun | src/HeroSection.jsx:38 | Dropping the leading whitespace run leaves text that is empty or starts with a non-whitespace character. Text that does not start with whitespace is unchanged; otherwise the result is shorter and ends as the input ends. The result is empty only for blank text. |
| Hero.DropRunSplits | src/HeroSection.jsx:38 | Everything dropped is whitespace, and what remains is the end of the text. |
| Hero.CollapseRuns | src/HeroSection.jsx:38 | `replace(/\s+/g,'-')` leaves no whitespace and does not lengthen the text. |
| Hero.CollapseRunsKeepsLowerCase | src/HeroSection.jsx:38 | Collapsing whitespace runs brings in no capital letter. |
| Hero.Slug | src/HeroSection.jsx:38 | A slug has no whitespace and no capital letter. |
| Hero.CollapseRunsIsScan | src/HeroSection.jsx:38 | Collapsing runs agrees with a character-by-character scan that writes `-` only at the first whitespace of each run. |
| Hero.ScanSkipsRun | src/HeroSection.jsx:38 | Inside a whitespace run the scan writes nothing until the run ends. |
| Hero.CollapseRunsOfClean | src/HeroSection.jsx:38 | Text without whitespace is unchanged. |
| Hero.CollapseRunsAppend | src/HeroSection.jsx:38 | Text that ends in a non-whitespace character is collapsed independently of what follows. |
| Hero.CollapseRunsAppendAtRun | src/HeroSection.jsx:38 | The same, for text that starts with a whitespace run. |
| Hero.CollapseRunsAppendAtWord | src/HeroSection.jsx:38 | The same, for text that starts with a non-whitespace character. |
| Hero.DropRunAppend | src/HeroSection.jsx:38 | Dropping a leading run of text that does not consist only of whitespace is unaffected by what follows it. |
| Hero.RunDropped | src/HeroSection.jsx:38 | A blank prefix followed by a word is dropped exactly. |
| Hero.RunBecomesOneDash | src/HeroSection.jsx:38 | A whitespace run, however long, becomes a single `-`. |
| Hero.LowerAppend | src/HeroSection.jsx:38 | Lower-casing distributes over concatenation. |
| Hero.LowerKeepsWhitespace | src/HeroSection.jsx:38 | Lower-casing keeps blank text blank and whitespace-free text whitespace-free. |
| Hero.SlugIdempotent | src/HeroSection.jsx:38 | The slug of a slug is the slug itself. |
| Hero.SlugOfWord | src/HeroSection.jsx:38 | A one-word item is only lower-cased. |
| Hero.SlugOfTwoWords | src/HeroSection.jsx:38 | Two words separated by any whitespace run become the lower-cased words joined by one `-`. |
| Hero.CollapseWordRunWord | src/HeroSection.jsx:38 | A word, a whitespace run and a word collapse to the two words joined by one `-`. |
| Hero.LowerOfThree | src/HeroSection.jsx:38 | Lower-casing three pieces put together is lower-casing each piece. |
| Hero.SectionSlugs | src/HeroSection.jsx:112 | `Home` becomes `home`, the hero section's id, and `About` becomes `about`, the id the about section declares in src/AboutSection.jsx. |
| Hero.JoinCommunitySlug | src/HeroSection.jsx:75 | `Join Community` becomes `join-community`. |
| Hero.JoinCommunityWords | src/HeroSection.jsx:75 | Cut after four characters and after one more, `Join Community` is the word `Join`, one blank space and the non-empty word `Community`. |
| Hero.LowerJoin | src/HeroSection.jsx:75 | `Join` lower-cases to `join`. |
| Hero.LowerCommunity | src/HeroSection.jsx:75 | `Community` lower-cases to `community`. |
| Hero.Advance | src/HeroSection.jsx:22 | The next photo index is below six. It is one more than the current index, and wraps from 5 to 0. |
| Hero.Ticks | src/HeroSection.jsx:20-25 | After at least one tick, or from a valid index, the index is a valid photo index. |
| Hero.TicksAdvanceRound | src/HeroSection.jsx:20-25 | After `n` ticks the slideshow is `n` photos further round the ring of six. |
| Hero.TicksCycle | src/HeroSection.jsx:10-25 | Six ticks bring back the same photo. |
| Hero.EveryPhotoShown | src/HeroSection.jsx:10-25 | From any photo, every photo is shown within six ticks. |
| Hero.Step | src/HeroSection.jsx:20-43 | A tick moves the photo on by one, round the ring of six, and changes nothing else. Navigating always closes the menu, and scrolls to the item's slug exactly when that id is on the page. A tick or indicator click leaves the menu as it was. An indicator click sets the index directly. The menu button toggles the menu and leaves the photo alone. |
| Hero.StepPreservesInv | src/HeroSection.jsx:136-139 | Every event keeps the photo index below six. |
| Hero.TickStepsFollowTicks | src/HeroSection.jsx:20-25 | Left alone for `n` ticks, the page shows the photo `Ticks` names, `n` photos on round the ring of six, and its menu stays as it was. |
| Hero.NavigateHome | src/HeroSection.jsx:112 | Choosing `Home` closes the menu and scrolls to `home` when that section is on the page. |

## Left out

- Express routing, body parsing, CORS, dotenv, axios and console logging are I/O. Each gateway reply is an input, and a response is a status with a body datatype.
- `Date.now()` and `Math.random()` are inputs: `now`/`nowMs` and the random suffixes. Neither the merchant reference nor the ticket id is claimed unique, because the code does not make them unique.
- `parseFloat(amount)` is floating point. The order's amount is kept as the request's text.
- Concurrent requests interleaving over the module-level token and IPN id are not modelled. Each request runs alone against one cache, with one clock reading per request. The code has no refresh coalescing.
- `Gateway.CreatePayment`: the body fields are modelled as optional strings. A JSON body can hold other values, and their outcomes are not modelled. A non-string `phone`, such as a number, passes the presence check and then makes `phone.replace` throw outside the `try` block, so no response is sent. A numeric `amount` of `0` is falsy and gets a 400.
- The gateway's base URL (sandbox or live) is configuration and is not modelled.
- The browser's sanitisation of the e-mail input's value (line breaks removed, surrounding whitespace trimmed) is not modelled. The `type="email"` check is applied to the field's value as the page holds it. The phone input is `type="tel"`, which adds no check.
- The reconciliation persistence in the GET IPN route is a TODO in the code. The model only makes the status query and acknowledges.
- Firestore, Firebase Auth, the `onSnapshot` listener, the clipboard, `alert`, `window.confirm` and the five-second notification timer are external services or timers. A write's success and the confirmation are inputs, and a listener snapshot is folded into the write: a stored update changes the listed submission at once.
- The admin sign-in and sign-out flow (`handleLogin`, `handleLogout`) and `loadSubmissions` are authentication and I/O.
- `Moderation.ApprovalPatch`, `Moderation.RejectionPatch` and `Moderation.EditPatch` use one clock reading per action, `nowIso` for every time field and `nowMs` for the ticket id. admin.jsx calls `new Date()` once per field and `Date.now()` for the ticket id, so its readings can differ by a few milliseconds.
- The `loading` flag that disables the admin's buttons while a write is in flight is left out. Each admin write is one atomic step.
- `createdAt` (a server timestamp) and the ordering by it are left out. The list order is the snapshot's order.
- `handleCopy` (clipboard) and the dark-mode, animation and scroll-shadow state of the pages are presentation.
- `toLowerCase` and `toUpperCase` are modelled on ASCII letters only. Non-ASCII letters are left as they are.
- `Moderation.EditDataOf`: a field the submission lacks (`undefined` in `editData`) is left out of the map. Firestore's `updateDoc` rejects `undefined` values unless configured to ignore them, and that configuration is not part of this model.
- `Moderation.Edit` requires the edit data to hold only editable keys. The edit modal's inputs are the only writers of that data, which the dashboard invariant records.
- `document.getElementById` and `scrollIntoView` are DOM calls. The ids present on the page are an input, and the scroll is the id returned.
- src/components/Eventpage.jsx, src/components/Campaign.jsx, src/App.jsx, src/App.js and tailwind.config.js are presentation or configuration and are not part of this model.

## Findings

| source | as written | input that shows it | evidently intended | confidence | as-written member | corrected member |
|---|---|---|---|---|---|---|
| src/components/Subscription.jsx:69 | The amount expression's non-capturing group offers `Ksh\.?`, `KES\.?` and, last, an empty alternative. The leftmost search therefore matches at the first digit or comma of the message, before any currency marker is considered. | The form's own placeholder SMS, `SH12345678 Confirmed. Ksh2,099.00 sent …`, gives the amount `12345678`: the transaction code's digits. | The amount is read after the first `Ksh`/`KES` marker: `2099.00`. | not executed | MpesaSms.ExtractAmount | MpesaSms.ExtractPaidAmount |

The ticket flow (`TicketFlow.BeginSubmit`, and through it `TicketFlow.Dispatch`) reads the amount as written, with `MpesaSms.ExtractAmount`. `TicketFlow.BeginSubmitCorrected` is the same step with the corrected reader `MpesaSms.ExtractPaidAmount`, and `TicketFlow.ExampleTicketAmounts` shows the two records on the placeholder SMS. `MpesaSms.CaptureIsFirstNumber` and `MpesaSms.SampleAmountAsWritten` exhibit the discrepancy. `MpesaSms.PaidAmountFollowsMarker` and `MpesaSms.SampleAmountIntended` state the intended behaviour.

=== FILE: gateway.dfy ===
/**
 * The payment-gateway integration of backend/server.js: the process-wide
 * access-token cache, the notification-id (IPN id) registry, the
 * create-payment, payment-status and IPN listener routes.
 *
 * The two process globals become an explicit `Cache` record. Every reply the
 * gateway could give is an input (`Replies`, one per endpoint), the clock is
 * an input read once per request, and every handler returns the new cache,
 * the gateway calls it made (in order) and its result.
 */
module Gateway {
  import opened Wrappers
  import opened Text
  import opened Orders

  /** The token is kept for four minutes; the gateway's own lifetime is five. */
  const TokenLifetimeMs: nat := 4 * 60 * 1000

  const AuthFailed: string := "Failed to authenticate with PesaPal"
  const NoMatchingIpn: string := "Could not find matching IPN URL. Please register manually using PesaPal form."
  const ConflictStatus: int := 409
  const AlreadyRegistered: string := "already registered"
  const MissingFields: string := "Missing required fields"
  const PaymentFailed: string := "Failed to create payment"
  const StatusFailed: string := "Failed to check payment status"

  /** The configuration read from the environment. */
  datatype Config = Config(ipnId: Option<string>, ipnUrl: Option<string>, frontendUrl: Option<string>)

  /** The process-wide state: the cached token, its expiry (ms) and the IPN id. */
  datatype Cache = Cache(accessToken: Option<string>, tokenExpiry: Option<int>, registeredIpnId: Option<string>)

  /** The state at process start: no token, the configured IPN id if one is set. */
  function Boot(cfg: Config): (c: Cache)
    ensures Truthy(c.registeredIpnId) <==> Truthy(cfg.ipnId)
    ensures Truthy(c.registeredIpnId) ==> c.registeredIpnId == cfg.ipnId
    ensures forall now: nat :: !TokenValid(c, now)
  {
    Cache(None, None, if Truthy(cfg.ipnId) then cfg.ipnId else None)
  }

  /** The cached token may be used at time `now`. */
  predicate TokenValid(c: Cache, now: int) {
    Truthy(c.accessToken) && c.tokenExpiry.Some? && c.tokenExpiry.value != 0
    && now < c.tokenExpiry.value
  }

  /** An HTTP error from the gateway: its status (absent when no response arrived) and `data.message`. */
  datatype HttpFailure = HttpFailure(status: Option<int>, upstreamMessage: Option<string>)

  /** What a failed step throws: a gateway error passed on, or an error raised here. */
  datatype Fault = Upstream(failure: HttpFailure) | Raised(message: string)

  datatype TokenReply = TokenIssued(token: Option<string>) | TokenRefused(failure: HttpFailure)

  datatype RegisterReply = IpnRegistered(ipnId: Option<string>) | RegisterRefused(failure: HttpFailure)

  datatype IpnEntry = IpnEntry(url: Option<string>, ipnId: Option<string>)

  datatype ListReply = IpnList(entries: seq<IpnEntry>) | ListRefused(failure: HttpFailure)

  datatype Receipt = Receipt(orderTrackingId: Option<string>, merchantReference: Option<string>, redirectUrl: Option<string>)

  datatype SubmitReply = OrderAccepted(receipt: Receipt) | SubmitRefused(failure: HttpFailure)

  /** A transaction-status snapshot; `statusCode` is 0 invalid, 1 completed, 2 failed, 3 reversed. */
  datatype TransactionStatus = TransactionStatus(
    statusCode: Option<int>,
    description: Option<string>,
    amount: Option<string>,
    paymentMethod: Option<string>,
    confirmationCode: Option<string>,
    merchantReference: Option<string>)

  datatype StatusReply = StatusReport(report: TransactionStatus) | StatusRefused(failure: HttpFailure)

  /** The reply each gateway endpoint gives if it is called during the request. */
  datatype Replies = Replies(
    token: TokenReply,
    register: RegisterReply,
    list: ListReply,
    submit: SubmitReply,
    status: StatusReply)

  /** A request made to the gateway. */
  datatype Call =
    | RequestToken
    | RegisterIpn(url: Option<string>)
    | GetIpnList
    | SubmitOrder(order: Order)
    | GetTransactionStatus(orderTrackingId: string)

  /** A call made on the way to the request's own purpose: the token or the IPN id. */
  predicate Preparatory(call: Call) {
    call == RequestToken || call.RegisterIpn? || call == GetIpnList
  }

  /** One step of a request: the new cache, the gateway calls made, what it returns or throws. */
  datatype Step<T> = Step(cache: Cache, calls: seq<Call>, result: Result<T, Fault>)

  /** How many token requests a call sequence holds. */
  function TokenRequests(calls: seq<Call>): nat {
    if |calls| == 0 then 0
    else (if calls[0] == RequestToken then 1 else 0) + TokenRequests(calls[1..])
  }

  lemma {:induction false} TokenRequestsAppend(a: seq<Call>, b: seq<Call>)
    ensures TokenRequests(a + b) == TokenRequests(a) + TokenRequests(b)
  {
    if |a| == 0 {
      assert a + b == b;
    } else {
      TokenRequestsAppend(a[1..], b);
      assert (a + b)[1..] == a[1..] + b;
    }
  }

  lemma PreparatoryAppend(a: seq<Call>, b: seq<Call>)
    requires forall k :: 0 <= k < |a| ==> Preparatory(a[k])
    requires forall k :: 0 <= k < |b| ==> Preparatory(b[k])
    ensures forall k :: 0 <= k < |a + b| ==> Preparatory((a + b)[k])
  {
  }

  /** The token step succeeds: the cache is valid, or the gateway issues a non-empty token. */
  predicate TokenObtainable(c: Cache, now: nat, reply: TokenReply) {
    TokenValid(c, now) || (reply.TokenIssued? && Truthy(reply.token))
  }

  /**
   * `getAccessToken`: the cached token while it is valid, with no gateway
   * call; otherwise one token request, whose token is cached for four minutes.
   */
  function GetAccessToken(c: Cache, now: nat, reply: TokenReply): (r: Step<string>)
    ensures r.calls == [] <==> TokenValid(c, now)
    ensures r.calls == [] || r.calls == [RequestToken]
    ensures forall k :: 0 <= k < |r.calls| ==> Preparatory(r.calls[k])
    ensures TokenValid(c, now) ==> r.cache == c && r.result == Ok(c.accessToken.value)
    ensures r.result.Ok? <==> TokenObtainable(c, now, reply)
    ensures r.result.Ok? ==> TokenValid(r.cache, now) && r.cache.accessToken == Some(r.result.value)
    ensures r.result.Ok? && r.calls != [] ==> r.cache.tokenExpiry == Some(now + TokenLifetimeMs)
    ensures r.result.Err? ==> r.result.error == Raised(AuthFailed) && !TokenValid(r.cache, now)
    ensures !TokenValid(c, now) && reply.TokenIssued? ==> r.cache.accessToken == reply.token
    ensures r.cache.registeredIpnId == c.registeredIpnId
  {
    if TokenValid(c, now) then Step(c, [], Ok(c.accessToken.value))
    else
      match reply
      case TokenRefused(_) => Step(c, [RequestToken], Err(Raised(AuthFailed)))
      case TokenIssued(token) =>
        var c' := c.(accessToken := token);
        if Truthy(token) then Step(c'.(tokenExpiry := Some(now + TokenLifetimeMs)), [RequestToken], Ok(token.value))
        else Step(c', [RequestToken], Err(Raised(AuthFailed)))
  }

  /** A refreshed token is served from the cache, with no call, until four minutes have passed, and refetched from then on. */
  lemma FreshTokenServedUntilExpiry(c: Cache, now: nat, reply: TokenReply, later: nat, reply': TokenReply)
    requires !TokenValid(c, now) && reply.TokenIssued? && Truthy(reply.token)
    requires now <= later
    ensures var first := GetAccessToken(c, now, reply);
      var second := GetAccessToken(first.cache, later, reply');
      (later < now + TokenLifetimeMs ==> second.calls == [] && second.result == first.result)
      && (later >= now + TokenLifetimeMs ==> second.calls == [RequestToken])
  {
  }

  /** A reply without a token leaves no usable token behind: the next call asks the gateway again. */
  lemma TokenlessReplyForcesRefetch(c: Cache, now: nat, token: Option<string>, later: nat, reply': TokenReply)
    requires !TokenValid(c, now) && !Truthy(token)
    ensures var first := GetAccessToken(c, now, TokenIssued(token));
      first.result == Err(Raised(AuthFailed))
      && GetAccessToken(first.cache, later, reply').calls == [RequestToken]
  {
  }

  /** The gateway signals that the IPN URL is already registered. */
  predicate IsConflict(e: Fault) {
    e.Upstream?
    && (e.failure.status == Some(ConflictStatus)
        || (e.failure.upstreamMessage.Some? && Contains(e.failure.upstreamMessage.value, AlreadyRegistered)))
  }

  /** The first entry whose URL equals `url` (`Array.prototype.find`), or `|entries|`. */
  function FindByUrl(entries: seq<IpnEntry>, url: Option<string>): (k: nat)
    ensures k <= |entries|
    ensures k < |entries| ==> entries[k].url == url
    ensures forall j :: 0 <= j < k ==> entries[j].url != url
  {
    if |entries| == 0 then 0
    else if entries[0].url == url then 0
    else 1 + FindByUrl(entries[1..], url)
  }

  /** The `try` block of `registerIPN`: a token, then the registration request. */
  function TryRegister(c: Cache, cfg: Config, now: nat, replies: Replies): (r: Step<Option<string>>)
    ensures TokenRequests(r.calls) <= 1
    ensures TokenValid(c, now) ==> TokenRequests(r.calls) == 0
    ensures r.result.Ok? || r.result.error.Upstream? ==> TokenValid(r.cache, now)
    ensures r.result.Ok? ==> r.cache.registeredIpnId == r.result.value
    ensures r.result.Err? ==> r.cache.registeredIpnId == c.registeredIpnId
    ensures GetIpnList !in r.calls
    ensures forall k :: 0 <= k < |r.calls| ==> Preparatory(r.calls[k])
  {
    var t := GetAccessToken(c, now, replies.token);
    if t.result.Err? then Step(t.cache, t.calls, Err(t.result.error))
    else
      var calls := t.calls + [RegisterIpn(cfg.ipnUrl)];
      TokenRequestsAppend(t.calls, [RegisterIpn(cfg.ipnUrl)]);
      match replies.register
      case IpnRegistered(id) => Step(t.cache.(registeredIpnId := id), calls, Ok(id))
      case RegisterRefused(f) => Step(t.cache, calls, Err(Upstream(f)))
  }

  /**
   * `getExistingIPN`: a token, the list of registered IPNs, and the id of the
   * first one whose URL is the configured IPN URL; no match is an error.
   */
  function GetExistingIpn(c: Cache, cfg: Config, now: nat, replies: Replies): (r: Step<Option<string>>)
    ensures TokenRequests(r.calls) <= 1
    ensures TokenValid(c, now) ==> TokenRequests(r.calls) == 0
    ensures forall k :: 0 <= k < |r.calls| ==> Preparatory(r.calls[k])
    ensures r.result.Ok? ==> r.cache.registeredIpnId == r.result.value
    ensures r.result.Ok? ==>
      replies.list.IpnList?
      && var k := FindByUrl(replies.list.entries, cfg.ipnUrl);
         k < |replies.list.entries| && r.result.value == replies.list.entries[k].ipnId
    ensures r.result.Err? ==> r.cache.registeredIpnId == c.registeredIpnId
    ensures TokenObtainable(c, now, replies.token) && replies.list.IpnList?
            && FindByUrl(replies.list.entries, cfg.ipnUrl) == |replies.list.entries|
            ==> r.result == Err(Raised(NoMatchingIpn))
    ensures TokenObtainable(c, now, replies.token) && replies.list.ListRefused? ==>
      r.result == Err(Upstream(replies.list.failure))
    ensures !TokenObtainable(c, now, replies.token) ==> r.result == Err(Raised(AuthFailed)) && GetIpnList !in r.calls
  {
    var t := GetAccessToken(c, now, replies.token);
    if t.result.Err? then Step(t.cache, t.calls, Err(t.result.error))
    else
      var calls := t.calls + [GetIpnList];
      TokenRequestsAppend(t.calls, [GetIpnList]);
      match replies.list
      case ListRefused(f) => Step(t.cache, calls, Err(Upstream(f)))
      case IpnList(entries) =>
        var k := FindByUrl(entries, cfg.ipnUrl);
        if k < |entries| then Step(t.cache.(registeredIpnId := entries[k].ipnId), calls, Ok(entries[k].ipnId))
        else Step(t.cache, calls, Err(Raised(NoMatchingIpn)))
  }

  /**
   * `registerIPN`: the cached or configured id with no gateway call;
   * otherwise a registration, falling back to the list lookup when the
   * gateway reports the URL as already registered. Whatever id is returned
   * is the one cached.
   */
  function RegisterIpnId(c: Cache, cfg: Config, now: nat, replies: Replies): (r: Step<Option<string>>)
    ensures Truthy(c.registeredIpnId) ==> r == Step(c, [], Ok(c.registeredIpnId))
    ensures r.result.Ok? ==> r.cache.registeredIpnId == r.result.value
    ensures r.result.Err? ==> r.cache.registeredIpnId == c.registeredIpnId
    ensures TokenRequests(r.calls) <= 1
    ensures TokenValid(c, now) ==> TokenRequests(r.calls) == 0
    ensures forall k :: 0 <= k < |r.calls| ==> Preparatory(r.calls[k])
    ensures GetIpnList in r.calls ==>
      replies.register.RegisterRefused? && IsConflict(Upstream(replies.register.failure))
    ensures !Truthy(c.registeredIpnId) && TokenObtainable(c, now, replies.token) ==>
      match replies.register
      case IpnRegistered(id) => r.result == Ok(id)
      case RegisterRefused(f) =>
        (!IsConflict(Upstream(f)) ==> r.result == Err(Upstream(f)))
        && (IsConflict(Upstream(f)) && replies.list.IpnList? ==>
              var es := replies.list.entries;
              var k := FindByUrl(es, cfg.ipnUrl);
              r.result == if k < |es| then Ok(es[k].ipnId) else Err(Raised(NoMatchingIpn)))
        && (IsConflict(Upstream(f)) && replies.list.ListRefused? ==>
              r.result == Err(Upstream(replies.list.failure)))
    ensures !Truthy(c.registeredIpnId) && !TokenObtainable(c, now, replies.token) ==>
      r.result == Err(Raised(AuthFailed)) && r.calls == [RequestToken]
  {
    if Truthy(c.registeredIpnId) then Step(c, [], Ok(c.registeredIpnId))
    else
      var attempt := TryRegister(c, cfg, now, replies);
      if attempt.result.Err? && IsConflict(attempt.result.error) then
        var lookup := GetExistingIpn(attempt.cache, cfg, now, replies);
        TokenRequestsAppend(attempt.calls, lookup.calls);
        Step(lookup.cache, attempt.calls + lookup.calls, lookup.result)
      else attempt
  }

  /**
   * The IPN id can be had: it is cached, or the registration returns one, or
   * the gateway reports a conflict and its list holds the configured URL.
   */
  predicate IpnResolvable(c: Cache, cfg: Config, replies: Replies) {
    Truthy(c.registeredIpnId)
    || replies.register.IpnRegistered?
    || (IsConflict(Upstream(replies.register.failure)) && replies.list.IpnList?
        && FindByUrl(replies.list.entries, cfg.ipnUrl) < |replies.list.entries|)
  }

  /** The body of a create-payment request; a missing field is `None`. */
  datatype PaymentRequest = PaymentRequest(
    plan: Option<string>,
    amount: Option<string>,
    period: Option<string>,
    fullName: Option<string>,
    phone: Option<string>,
    email: Option<string>)

  /** Every field the route insists on is present and non-empty; `period` is not among them. */
  predicate HasRequiredFields(req: PaymentRequest) {
    Truthy(req.plan) && Truthy(req.amount) && Truthy(req.fullName) && Truthy(req.phone) && Truthy(req.email)
  }

  /** What a route sends back. */
  datatype Body =
    | PlainText(text: string)
    | Refusal(message: string, error: Option<Fault>)
    | PaymentInitiated(receipt: Receipt)
    | StatusData(report: TransactionStatus)

  datatype HttpResponse = HttpResponse(status: int, body: Body)

  /** A handled request: the new cache, the gateway calls made, the response. */
  datatype Handled = Handled(cache: Cache, calls: seq<Call>, response: HttpResponse)

  /** The order a validated request must produce, against the IPN id cached once it was resolved. */
  predicate OrderFits(o: Order, req: PaymentRequest, reference: string, c: Cache, frontendUrl: Option<string>)
    requires HasRequiredFields(req)
  {
    o.id == reference && o.amount == req.amount.value
    && o.description == Description(req.plan.value, req.period)
    && o.callbackUrl == CallbackUrl(frontendUrl)
    && o.currency == Currency && o.billing.countryCode == CountryIso
    && o.billing.phoneNumber == FormatPhone(req.phone.value)
    && Name(o.billing.firstName, o.billing.lastName) == SplitName(req.fullName.value)
    && o.billing.emailAddress == req.email.value
    && o.notificationId == c.registeredIpnId
  }

  /** The order a validated request produces against the cached IPN id. */
  function OrderFor(req: PaymentRequest, reference: string, c: Cache, frontendUrl: Option<string>): (o: Order)
    requires HasRequiredFields(req)
    ensures OrderFits(o, req, reference, c, frontendUrl)
  {
    BuildOrder(reference, req.plan.value, req.amount.value, req.period, req.fullName.value,
               req.phone.value, req.email.value, c.registeredIpnId, frontendUrl)
  }

  /** The 500 body of create-payment: the gateway's message when it gave one. */
  function PaymentFailure(e: Fault): (b: Body)
    ensures b.Refusal? && b.error == Some(e)
    ensures e.Upstream? && Truthy(e.failure.upstreamMessage) ==> b.message == e.failure.upstreamMessage.value
    ensures !(e.Upstream? && Truthy(e.failure.upstreamMessage)) ==> b.message == PaymentFailed
  {
    if e.Upstream? && Truthy(e.failure.upstreamMessage) then Refusal(e.failure.upstreamMessage.value, Some(e))
    else Refusal(PaymentFailed, Some(e))
  }

  /**
   * `POST /api/create-payment`: 400 with no gateway call when a required
   * field is missing; otherwise the payment is initiated.
   */
  function CreatePayment(c: Cache, cfg: Config, req: PaymentRequest, now: nat, randomSuffix: string,
                         replies: Replies): (h: Handled)
    ensures h.response.status == 400 <==> !HasRequiredFields(req)
    ensures !HasRequiredFields(req) ==> h.calls == [] && h.cache == c
    ensures h.calls != [] && h.calls[|h.calls| - 1].SubmitOrder? <==>
      HasRequiredFields(req) && TokenObtainable(c, now, replies.token) && IpnResolvable(c, cfg, replies)
    ensures h.response.status == 200 <==>
      HasRequiredFields(req) && TokenObtainable(c, now, replies.token) && IpnResolvable(c, cfg, replies)
      && replies.submit.OrderAccepted?
    ensures HasRequiredFields(req) && TokenObtainable(c, now, replies.token) && IpnResolvable(c, cfg, replies)
            && replies.submit.SubmitRefused? ==>
      h.response == HttpResponse(500, PaymentFailure(Upstream(replies.submit.failure)))
    ensures HasRequiredFields(req) && !TokenObtainable(c, now, replies.token) ==>
      h.response == HttpResponse(500, PaymentFailure(Raised(AuthFailed)))
    ensures h.response.status == 200 || h.response.status == 400 || h.response.status == 500
    ensures TokenRequests(h.calls) <= 1
    ensures forall k :: 0 <= k < |h.calls| - 1 ==> Preparatory(h.calls[k])
    ensures h.calls != [] && h.calls[|h.calls| - 1].SubmitOrder? ==>
      HasRequiredFields(req)
      && OrderFits(h.calls[|h.calls| - 1].order, req, MerchantReference(now, randomSuffix), h.cache, cfg.frontendUrl)
    ensures h.response.status == 200 <==>
      h.calls != [] && h.calls[|h.calls| - 1].SubmitOrder? && replies.submit.OrderAccepted?
    ensures h.response.status == 200 ==> h.response.body == PaymentInitiated(replies.submit.receipt)
  {
    if !HasRequiredFields(req) then
      Handled(c, [], HttpResponse(400, Refusal(MissingFields, None)))
    else InitiatePayment(c, cfg, req, now, randomSuffix, replies)
  }

  /**
   * What create-payment does before the order: a token, then the IPN id. A
   * registration or list lookup never asks for a second token, and a cached
   * IPN id is kept without a gateway call.
   */
  function Prepare(c: Cache, cfg: Config, now: nat, replies: Replies): (r: Step<Option<string>>)
    ensures TokenRequests(r.calls) <= 1
    ensures forall k :: 0 <= k < |r.calls| ==> Preparatory(r.calls[k])
    ensures r.result.Ok? ==> r.cache.registeredIpnId == r.result.value
    ensures Truthy(c.registeredIpnId) ==>
      r.cache.registeredIpnId == c.registeredIpnId
      && forall k :: 0 <= k < |r.calls| ==> r.calls[k] == RequestToken
    ensures r.result.Ok? <==> TokenObtainable(c, now, replies.token) && IpnResolvable(c, cfg, replies)
    ensures !TokenObtainable(c, now, replies.token) ==> r.result == Err(Raised(AuthFailed))
    ensures TokenObtainable(c, now, replies.token) && Truthy(c.registeredIpnId) ==> r.result == Ok(c.registeredIpnId)
    ensures TokenObtainable(c, now, replies.token) && !Truthy(c.registeredIpnId) ==>
      match replies.register
      case IpnRegistered(id) => r.result == Ok(id)
      case RegisterRefused(f) =>
        (!IsConflict(Upstream(f)) ==> r.result == Err(Upstream(f)))
        && (IsConflict(Upstream(f)) && replies.list.IpnList? ==>
              var es := replies.list.entries;
              var k := FindByUrl(es, cfg.ipnUrl);
              r.result == if k < |es| then Ok(es[k].ipnId) else Err(Raised(NoMatchingIpn)))
        && (IsConflict(Upstream(f)) && replies.list.ListRefused? ==>
              r.result == Err(Upstream(replies.list.failure)))
  {
    var t := GetAccessToken(c, now, replies.token);
    if t.result.Err? then Step(t.cache, t.calls, Err(t.result.error))
    else
      var ipn := RegisterIpnId(t.cache, cfg, now, replies);
      TokenRequestsAppend(t.calls, ipn.calls);
      PreparatoryAppend(t.calls, ipn.calls);
      Step(ipn.cache, t.calls + ipn.calls, ipn.result)
  }

  /**
   * The `try` block of create-payment: a token, the IPN id (the cached one,
   * else registered), then the order; 200 with the gateway's receipt, or 500
   * on any failure. The order goes out only once both are in hand.
   */
  function InitiatePayment(c: Cache, cfg: Config, req: PaymentRequest, now: nat, randomSuffix: string,
                           replies: Replies): (h: Handled)
    requires HasRequiredFields(req)
    ensures h.response.status == 200 || h.response.status == 500
    ensures h.calls != [] && h.calls[|h.calls| - 1].SubmitOrder? <==>
      TokenObtainable(c, now, replies.token) && IpnResolvable(c, cfg, replies)
    ensures h.response.status == 200 <==>
      TokenObtainable(c, now, replies.token) && IpnResolvable(c, cfg, replies) && replies.submit.OrderAccepted?
    ensures TokenObtainable(c, now, replies.token) && IpnResolvable(c, cfg, replies) && replies.submit.SubmitRefused? ==>
      h.response == HttpResponse(500, PaymentFailure(Upstream(replies.submit.failure)))
    ensures !(TokenObtainable(c, now, replies.token) && IpnResolvable(c, cfg, replies)) ==>
      h.response == HttpResponse(500, PaymentFailure(Prepare(c, cfg, now, replies).result.error))
    ensures TokenRequests(h.calls) <= 1
    ensures forall k :: 0 <= k < |h.calls| - 1 ==> Preparatory(h.calls[k])
    ensures h.calls != [] && h.calls[|h.calls| - 1].SubmitOrder? ==>
      OrderFits(h.calls[|h.calls| - 1].order, req, MerchantReference(now, randomSuffix), h.cache, cfg.frontendUrl)
    ensures h.response.status == 200 <==>
      h.calls != [] && h.calls[|h.calls| - 1].SubmitOrder? && replies.submit.OrderAccepted?
    ensures h.response.status == 200 ==> h.response.body == PaymentInitiated(replies.submit.receipt)
  {
    var pre := Prepare(c, cfg, now, replies);
    if pre.result.Err? then
      Handled(pre.cache, pre.calls, HttpResponse(500, PaymentFailure(pre.result.error)))
    else
      var order := OrderFor(req, MerchantReference(now, randomSuffix), pre.cache, cfg.frontendUrl);
      SubmitOrderStep(pre.cache, pre.calls, order, replies.submit)
  }

  /** The order submission that ends a payment initiation: 200 with the receipt, or 500. */
  function SubmitOrderStep(c: Cache, calls: seq<Call>, order: Order, reply: SubmitReply): (h: Handled)
    requires TokenRequests(calls) <= 1
    requires forall k :: 0 <= k < |calls| ==> Preparatory(calls[k])
    ensures h.cache == c && h.calls == calls + [SubmitOrder(order)]
    ensures TokenRequests(h.calls) <= 1
    ensures forall k :: 0 <= k < |h.calls| - 1 ==> Preparatory(h.calls[k])
    ensures h.response.status == 200 <==> reply.OrderAccepted?
    ensures h.response.status == 200 ==> h.response.body == PaymentInitiated(reply.receipt)
    ensures h.response.status != 200 ==> h.response.status == 500
  {
    var calls' := calls + [SubmitOrder(order)];
    TokenRequestsAppend(calls, [SubmitOrder(order)]);
    match reply
    case SubmitRefused(f) =>
      Handled(c, calls', HttpResponse(500, PaymentFailure(Upstream(f))))
    case OrderAccepted(receipt) =>
      Handled(c, calls', HttpResponse(200, PaymentInitiated(receipt)))
  }

  /**
   * `GET /api/payment-status/:orderTrackingId`: a token and the status query;
   * 200 with the gateway's snapshot unchanged, or 500.
   */
  function PaymentStatus(c: Cache, now: nat, orderTrackingId: string, replies: Replies): (h: Handled)
    ensures h.response.status == 400 <==> orderTrackingId == ""
    ensures orderTrackingId == "" ==> h.calls == [] && h.cache == c
    ensures h.response.status == 200 <==>
      orderTrackingId != "" && TokenObtainable(c, now, replies.token) && replies.status.StatusReport?
    ensures h.response.status == 200 ==>
      h.response.body == StatusData(replies.status.report)
      && h.calls != [] && h.calls[|h.calls| - 1] == GetTransactionStatus(orderTrackingId)
    ensures h.response.status == 200 || h.response.status == 400 || h.response.status == 500
    ensures TokenRequests(h.calls) <= 1
  {
    if orderTrackingId == "" then
      Handled(c, [], HttpResponse(400, Refusal("Missing orderTrackingId", None)))
    else
      var t := GetAccessToken(c, now, replies.token);
      if t.result.Err? then
        Handled(t.cache, t.calls, HttpResponse(500, Refusal(StatusFailed, Some(t.result.error))))
      else
        var calls := t.calls + [GetTransactionStatus(orderTrackingId)];
        TokenRequestsAppend(t.calls, [GetTransactionStatus(orderTrackingId)]);
        match replies.status
        case StatusRefused(f) =>
          Handled(t.cache, calls, HttpResponse(500, Refusal(StatusFailed, Some(Upstream(f)))))
        case StatusReport(report) =>
          Handled(t.cache, calls, HttpResponse(200, StatusData(report)))
  }

  /**
   * `GET /pesapal-ipn`: validate the tracking id, reconcile by querying the
   * transaction status, then acknowledge with 200 `OK` whatever the status
   * is; 400 without a tracking id, 500 when the reconciliation fails.
   */
  function IpnGet(c: Cache, now: nat, orderTrackingId: Option<string>, merchantReference: Option<string>,
                  replies: Replies): (h: Handled)
    ensures h.response.status == 400 <==> !Truthy(orderTrackingId)
    ensures !Truthy(orderTrackingId) ==> h.calls == [] && h.cache == c
    ensures h.response.status == 200 <==>
      Truthy(orderTrackingId) && TokenObtainable(c, now, replies.token) && replies.status.StatusReport?
    ensures h.response.status == 200 ==>
      h.response.body == PlainText("OK")
      && h.calls != [] && h.calls[|h.calls| - 1] == GetTransactionStatus(orderTrackingId.value)
    ensures h.response.status == 200 || h.response.status == 400 || h.response.status == 500
    ensures TokenRequests(h.calls) <= 1
  {
    if !Truthy(orderTrackingId) then
      Handled(c, [], HttpResponse(400, PlainText("Missing OrderTrackingId")))
    else
      var t := GetAccessToken(c, now, replies.token);
      if t.result.Err? then
        Handled(t.cache, t.calls, HttpResponse(500, PlainText("Error processing IPN")))
      else
        var calls := t.calls + [GetTransactionStatus(orderTrackingId.value)];
        TokenRequestsAppend(t.calls, [GetTransactionStatus(orderTrackingId.value)]);
        match replies.status
        case StatusRefused(_) => Handled(t.cache, calls, HttpResponse(500, PlainText("Error processing IPN")))
        case StatusReport(_) => Handled(t.cache, calls, HttpResponse(200, PlainText("OK")))
  }

  /** The acknowledgement does not depend on which status the gateway reports. */
  lemma IpnAckIgnoresStatus(c: Cache, now: nat, id: Option<string>, ref: Option<string>, replies: Replies,
                            a: TransactionStatus, b: TransactionStatus)
    ensures IpnGet(c, now, id, ref, replies.(status := StatusReport(a)))
         == IpnGet(c, now, id, ref, replies.(status := StatusReport(b)))
  {
  }

  /** `POST /pesapal-ipn`: validates and acknowledges; it makes no gateway call and leaves the cache alone. */
  function IpnPost(c: Cache, orderTrackingId: Option<string>, merchantReference: Option<string>): (h: Handled)
    ensures h.calls == [] && h.cache == c
    ensures h.response.status == 200 <==> Truthy(orderTrackingId)
    ensures h.response.status == 200 || h.response.status == 400
  {
    if !Truthy(orderTrackingId) then Handled(c, [], HttpResponse(400, PlainText("Missing OrderTrackingId")))
    else Handled(c, [], HttpResponse(200, PlainText("OK")))
  }

  /** Once an IPN id is cached, a later payment reuses it without registering again. */
  lemma CachedIpnIdReused(c: Cache, cfg: Config, req: PaymentRequest, now: nat, suffix: string, replies: Replies)
    requires Truthy(c.registeredIpnId)
    ensures var h := CreatePayment(c, cfg, req, now, suffix, replies);
      forall k :: 0 <= k < |h.calls| ==> !h.calls[k].RegisterIpn? && h.calls[k] != GetIpnList
  {
    var h := CreatePayment(c, cfg, req, now, suffix, replies);
    if HasRequiredFields(req) {
      var t := GetAccessToken(c, now, replies.token);
      assert t.cache.registeredIpnId == c.registeredIpnId;
    }
  }
}

=== FILE: hero.dfy ===
/**
 * The landing page's hero section of src/HeroSection.jsx: the slug that a
 * navigation item becomes before the page looks up the section with that
 * id, the photo slideshow's index, and the mobile menu flag.
 */
module Hero {
  import opened Wrappers
  import opened Text

  /*
   * The slug: `item.toLowerCase().replace(/\s+/g, '-')`.
   */

  /** Drops the whitespace at the front of `s`. */
  function DropRun(s: string): (r: string)
    ensures |r| <= |s|
    ensures r == [] || !IsWhitespace(r[0])
    ensures s == [] || !IsWhitespace(s[0]) ==> r == s
    ensures s != [] && IsWhitespace(s[0]) ==> |r| < |s|
    ensures r != [] ==> r[|r| - 1] == s[|s| - 1]
    ensures r == [] ==> IsBlank(s)
  {
    if s != [] && IsWhitespace(s[0]) then DropRun(s[1..]) else s
  }

  /** What is dropped is whitespace, and what remains is the end of the text. */
  lemma {:induction false} DropRunSplits(s: string)
    ensures var r := DropRun(s);
      (forall i :: 0 <= i < |s| - |r| ==> IsWhitespace(s[i]))
      && (forall i :: 0 <= i < |r| ==> r[i] == s[|s| - |r| + i])
  {
    if s != [] && IsWhitespace(s[0]) {
      var t := s[1..];
      DropRunSplits(t);
      assert forall i :: 1 <= i < |s| ==> s[i] == t[i - 1];
    }
  }

  /**
   * Replaces each maximal run of whitespace by one `-`; every other
   * character is kept.
   */
  function CollapseRuns(s: string): (r: string)
    ensures NoWhitespace(r)
    ensures |r| <= |s|
    decreases |s|
  {
    if s == [] then []
    else if IsWhitespace(s[0]) then "-" + CollapseRuns(DropRun(s))
    else [s[0]] + CollapseRuns(s[1..])
  }

  /** No capital ASCII letter. */
  predicate LowerCase(s: string) {
    forall i :: 0 <= i < |s| ==> !IsUpper(s[i])
  }

  /** Collapsing whitespace runs brings in no capital letter. */
  lemma {:induction false} CollapseRunsKeepsLowerCase(s: string)
    requires LowerCase(s)
    ensures LowerCase(CollapseRuns(s))
    decreases |s|
  {
    if s == [] {
    } else if IsWhitespace(s[0]) {
      var rest := DropRun(s);
      DropRunSplits(s);
      assert LowerCase(rest) by {
        forall i | 0 <= i < |rest| ensures !IsUpper(rest[i]) {
          assert rest[i] == s[|s| - |rest| + i];
        }
      }
      CollapseRunsKeepsLowerCase(rest);
      var r := CollapseRuns(rest);
      assert CollapseRuns(s) == "-" + r;
      assert forall i :: 1 <= i < |r| + 1 ==> ("-" + r)[i] == r[i - 1];
    } else {
      var t := s[1..];
      assert forall i :: 0 <= i < |t| ==> t[i] == s[i + 1];
      CollapseRunsKeepsLowerCase(t);
      var r := CollapseRuns(t);
      assert CollapseRuns(s) == [s[0]] + r;
      assert forall i :: 1 <= i < |r| + 1 ==> ([s[0]] + r)[i] == r[i - 1];
    }
  }

  /** The id a navigation item is scrolled to. */
  function Slug(item: string): (r: string)
    ensures NoWhitespace(r)
    ensures LowerCase(r)
  {
    var lower := Lower(item);
    CollapseRunsKeepsLowerCase(lower);
    CollapseRuns(lower)
  }

  /**
   * A reference reading of the global replace: the item is scanned one
   * character at a time, and a whitespace character writes `-` only when it
   * starts a run (`inRun` says the previous character was whitespace).
   */
  function Scan(s: string, inRun: bool): string {
    if s == [] then []
    else if IsWhitespace(s[0]) then (if inRun then [] else "-") + Scan(s[1..], true)
    else [s[0]] + Scan(s[1..], false)
  }

  lemma {:induction false} ScanSkipsRun(s: string)
    ensures Scan(s, true) == Scan(DropRun(s), false) || (DropRun(s) == [] && Scan(s, true) == [])
    ensures DropRun(s) != [] ==> Scan(s, true) == Scan(DropRun(s), false)
  {
    if s != [] && IsWhitespace(s[0]) {
      ScanSkipsRun(s[1..]);
    }
  }

  /** Collapsing runs agrees with the character-by-character scan. */
  lemma {:induction false} CollapseRunsIsScan(s: string)
    ensures CollapseRuns(s) == Scan(s, false)
    decreases |s|
  {
    if s == [] {
    } else if IsWhitespace(s[0]) {
      var rest := DropRun(s);
      ScanSkipsRun(s[1..]);
      assert DropRun(s[1..]) == rest;
      CollapseRunsIsScan(rest);
      if rest == [] {
        assert Scan(s[1..], true) == [];
      }
    } else {
      CollapseRunsIsScan(s[1..]);
    }
  }

  /** Text without whitespace is left as it is. */
  lemma {:induction false} CollapseRunsOfClean(s: string)
    requires NoWhitespace(s)
    ensures CollapseRuns(s) == s
  {
    if s != [] {
      assert !IsWhitespace(s[0]);
      CollapseRunsOfClean(s[1..]);
    }
  }

  /** The text up to a non-whitespace character is collapsed independently of what follows. */
  lemma {:induction false} CollapseRunsAppend(a: string, x: string)
    requires a == [] || !IsWhitespace(a[|a| - 1])
    ensures CollapseRuns(a + x) == CollapseRuns(a) + CollapseRuns(x)
    decreases |a|, 1
  {
    if a == [] {
      assert a + x == x;
    } else if IsWhitespace(a[0]) {
      CollapseRunsAppendAtRun(a, x);
    } else {
      CollapseRunsAppendAtWord(a, x);
    }
  }

  lemma {:induction false} CollapseRunsAppendAtRun(a: string, x: string)
    requires a != [] && IsWhitespace(a[0]) && !IsWhitespace(a[|a| - 1])
    ensures CollapseRuns(a + x) == CollapseRuns(a) + CollapseRuns(x)
    decreases |a|, 0
  {
    var rest := DropRun(a);
    assert rest != [] by { assert !IsWhitespace(a[|a| - 1]); }
    assert (a + x)[0] == a[0];
    DropRunAppend(a, x);
    CollapseRunsAppend(rest, x);
    assert CollapseRuns(a + x) == "-" + CollapseRuns(rest + x);
  }

  lemma {:induction false} CollapseRunsAppendAtWord(a: string, x: string)
    requires a != [] && !IsWhitespace(a[0]) && !IsWhitespace(a[|a| - 1])
    ensures CollapseRuns(a + x) == CollapseRuns(a) + CollapseRuns(x)
    decreases |a|, 0
  {
    var tail := a[1..];
    assert (a + x)[1..] == tail + x;
    assert (a + x)[0] == a[0];
    assert tail == [] || tail[|tail| - 1] == a[|a| - 1];
    CollapseRunsAppend(tail, x);
    assert CollapseRuns(a + x) == [a[0]] + CollapseRuns(tail + x);
  }

  lemma {:induction false} DropRunAppend(a: string, x: string)
    requires DropRun(a) != []
    ensures DropRun(a + x) == DropRun(a) + x
  {
    if a != [] && IsWhitespace(a[0]) {
      assert (a + x)[0] == a[0];
      assert (a + x)[1..] == a[1..] + x;
      DropRunAppend(a[1..], x);
    } else {
      assert a != [];
      assert (a + x)[0] == a[0];
    }
  }

  /** A run of whitespace followed by a word becomes a single `-`. */
  lemma RunBecomesOneDash(w: string, b: string)
    requires w != [] && IsBlank(w)
    requires b == [] || !IsWhitespace(b[0])
    ensures CollapseRuns(w + b) == "-" + CollapseRuns(b)
  {
    RunDropped(w, b);
  }

  lemma {:induction false} RunDropped(w: string, b: string)
    requires IsBlank(w)
    requires b == [] || !IsWhitespace(b[0])
    ensures DropRun(w + b) == b
  {
    if w == [] {
      assert w + b == b;
    } else {
      assert (w + b)[1..] == w[1..] + b;
      RunDropped(w[1..], b);
    }
  }

  /** A slug is its own slug. */
  lemma SlugIdempotent(item: string)
    ensures Slug(Slug(item)) == Slug(item)
  {
    var r := Slug(item);
    assert Lower(r) == r by {
      assert forall i :: 0 <= i < |r| ==> Lower(r)[i] == r[i];
    }
    CollapseRunsOfClean(r);
  }

  /** A one-word item is only lower-cased. */
  lemma SlugOfWord(item: string)
    requires NoWhitespace(item)
    ensures Slug(item) == Lower(item)
  {
    CollapseRunsOfClean(Lower(item));
  }

  lemma LowerAppend(x: string, y: string)
    ensures Lower(x + y) == Lower(x) + Lower(y)
  {
  }

  /** Lower-casing leaves whitespace and non-whitespace where they were. */
  lemma LowerKeepsWhitespace(x: string)
    ensures IsBlank(x) ==> IsBlank(Lower(x))
    ensures NoWhitespace(x) ==> NoWhitespace(Lower(x))
  {
    var lx := Lower(x);
    assert forall i :: 0 <= i < |x| ==> (IsWhitespace(lx[i]) <==> IsWhitespace(x[i]));
  }

  /** A word, a whitespace run and a word collapse to the two words around one `-`. */
  lemma CollapseWordRunWord(a: string, w: string, b: string)
    requires a != [] && NoWhitespace(a) && b != [] && NoWhitespace(b)
    requires w != [] && IsBlank(w)
    ensures CollapseRuns(a + (w + b)) == a + ("-" + b)
  {
    assert !IsWhitespace(a[|a| - 1]);
    assert !IsWhitespace(b[0]);
    CollapseRunsAppend(a, w + b);
    RunBecomesOneDash(w, b);
    CollapseRunsOfClean(a);
    CollapseRunsOfClean(b);
  }

  lemma LowerOfThree(a: string, w: string, b: string)
    ensures Lower(a + w + b) == Lower(a) + (Lower(w) + Lower(b))
  {
    LowerAppend(a, w + b);
    LowerAppend(w, b);
    assert a + w + b == a + (w + b);
  }

  /** Two words separated by a run of whitespace are joined by one `-`. */
  lemma SlugOfTwoWords(a: string, w: string, b: string)
    requires a != [] && NoWhitespace(a) && b != [] && NoWhitespace(b)
    requires w != [] && IsBlank(w)
    ensures Slug(a + w + b) == Lower(a) + "-" + Lower(b)
  {
    LowerOfThree(a, w, b);
    LowerKeepsWhitespace(a);
    LowerKeepsWhitespace(w);
    LowerKeepsWhitespace(b);
    CollapseWordRunWord(Lower(a), Lower(w), Lower(b));
  }

  /** `Home` and `About` are scrolled to the ids of the hero and the about section. */
  lemma SectionSlugs(home: string, about: string)
    requires home == "Home" && about == "About"
    ensures Slug(home) == "home" && Slug(about) == "about"
  {
    assert NoWhitespace(home) && NoWhitespace(about);
    SlugOfWord(home);
    SlugOfWord(about);
    assert Lower(home) == "home";
    assert Lower(about) == "about";
  }

  /** The two-word menu entry becomes `join-community`. */
  lemma JoinCommunitySlug(item: string)
    requires item == "Join Community"
    ensures Slug(item) == "join-community"
  {
    var a, w, b := item[..4], item[4..5], item[5..];
    assert item == a + w + b;
    JoinCommunityWords(a, w, b);
    SlugOfTwoWords(a, w, b);
    LowerJoin(a);
    LowerCommunity(b);
  }

  lemma JoinCommunityWords(a: string, w: string, b: string)
    requires a + w + b == "Join Community" && |a| == 4 && |w| == 1
    ensures a == "Join" && w == " " && b == "Community"
    ensures NoWhitespace(a) && IsBlank(w) && NoWhitespace(b) && b != []
  {
    var s := a + w + b;
    assert forall i :: 0 <= i < 4 ==> a[i] == s[i];
    assert w[0] == s[4];
    assert forall i :: 0 <= i < |b| ==> b[i] == s[5 + i];
  }

  lemma LowerJoin(a: string)
    requires a == "Join"
    ensures Lower(a) == "join"
  {
    var r := Lower(a);
    assert forall i :: 0 <= i < 4 ==> r[i] == "join"[i];
  }

  lemma LowerCommunity(b: string)
    requires b == "Community"
    ensures Lower(b) == "community"
  {
    var r := Lower(b);
    assert forall i :: 0 <= i < 9 ==> r[i] == "community"[i];
  }

  /*
   * The slideshow and the menu.
   */

  const Photos: seq<string> :=
    ["/photo_1.jpg", "/photo_2.jpg", "/photo_3.jpg", "/photo_4.jpg", "/photo_5.jpg", "/photo_6.jpg"]

  /** The photo shown after the five-second timer fires. */
  function Advance(i: nat): (j: nat)
    ensures j < |Photos|
    ensures i + 1 < |Photos| ==> j == i + 1
    ensures i + 1 == |Photos| ==> j == 0
  {
    (i + 1) % |Photos|
  }

  /** The photo shown after `n` timer ticks. */
  function Ticks(i: nat, n: nat): (j: nat)
    ensures n > 0 || i < |Photos| ==> j < |Photos|
  {
    if n == 0 then i else Advance(Ticks(i, n - 1))
  }

  /** After `n` ticks the slideshow has moved `n` photos on, round the ring. */
  lemma {:induction false} TicksAdvanceRound(i: nat, n: nat)
    requires i < |Photos|
    ensures Ticks(i, n) == (i + n) % |Photos|
  {
    if n > 0 {
      TicksAdvanceRound(i, n - 1);
    }
  }

  /** Six ticks bring the first photo back. */
  lemma TicksCycle(i: nat)
    requires i < |Photos|
    ensures Ticks(i, |Photos|) == i
  {
    TicksAdvanceRound(i, |Photos|);
  }

  /** From any photo, every photo is shown within six ticks. */
  lemma EveryPhotoShown(i: nat, k: nat) returns (n: nat)
    requires i < |Photos| && k < |Photos|
    ensures n < |Photos| && Ticks(i, n) == k
  {
    n := (k + |Photos| - i) % |Photos|;
    TicksAdvanceRound(i, n);
  }

  datatype HeroState = HeroState(menuOpen: bool, currentPhoto: nat)

  const InitialHero := HeroState(false, 0)

  predicate Inv(h: HeroState) {
    h.currentPhoto < |Photos|
  }

  datatype Event =
    | Tick
    | PickPhoto(index: nat)
    | ToggleMenu
    | NavigateTo(item: string)

  /** The new state and the id of the section scrolled into view, if any. */
  datatype Moved = Moved(state: HeroState, scrolledTo: Option<string>)

  /**
   * One event. The page's section ids are an input; navigation scrolls only
   * when an element with the item's slug exists and always closes the menu.
   * Indicator buttons exist only for the photos' indices.
   */
  function Step(h: HeroState, e: Event, sectionIds: set<string>): (m: Moved)
    ensures e.Tick? ==> m == Moved(h.(currentPhoto := Advance(h.currentPhoto)), None)
    ensures e.NavigateTo? ==> !m.state.menuOpen
    ensures e.NavigateTo? ==> (m.scrolledTo.Some? <==> Slug(e.item) in sectionIds)
    ensures m.scrolledTo.Some? ==> e.NavigateTo? && m.scrolledTo.value == Slug(e.item)
    ensures e.PickPhoto? && e.index < |Photos| ==> m.state.currentPhoto == e.index
    ensures !e.ToggleMenu? && !e.NavigateTo? ==> m.state.menuOpen == h.menuOpen
    ensures e.ToggleMenu? ==> m.state.menuOpen != h.menuOpen
    ensures e.ToggleMenu? || e.NavigateTo? ==> m.state.currentPhoto == h.currentPhoto
  {
    match e
    case Tick => Moved(h.(currentPhoto := Advance(h.currentPhoto)), None)
    case PickPhoto(k) => Moved(if k < |Photos| then h.(currentPhoto := k) else h, None)
    case ToggleMenu => Moved(h.(menuOpen := !h.menuOpen), None)
    case NavigateTo(item) =>
      var id := Slug(item);
      Moved(h.(menuOpen := false), if id in sectionIds then Some(id) else None)
  }

  /** The page after `n` timer ticks and no other event. */
  function TickSteps(h: HeroState, n: nat, sectionIds: set<string>): HeroState {
    if n == 0 then h else Step(TickSteps(h, n - 1, sectionIds), Tick, sectionIds).state
  }

  /**
   * Left alone, the page shows after `n` ticks the photo `Ticks` names, that
   * is `n` photos on round the ring, and its menu stays as it was.
   */
  lemma {:induction false} TickStepsFollowTicks(h: HeroState, n: nat, sectionIds: set<string>)
    ensures TickSteps(h, n, sectionIds) == h.(currentPhoto := Ticks(h.currentPhoto, n))
    ensures Inv(h) ==> TickSteps(h, n, sectionIds).currentPhoto == (h.currentPhoto + n) % |Photos|
  {
    if n > 0 {
      TickStepsFollowTicks(h, n - 1, sectionIds);
    }
    if Inv(h) {
      TicksAdvanceRound(h.currentPhoto, n);
    }
  }

  /** Every event keeps the shown photo among the photos. */
  lemma StepPreservesInv(h: HeroState, e: Event, sectionIds: set<string>)
    requires Inv(h)
    ensures Inv(Step(h, e, sectionIds).state)
  {
  }

  /** Choosing `Home` in the menu closes it and scrolls to the hero section when it is on the page. */
  lemma NavigateHome(h: HeroState, item: string, sectionIds: set<string>)
    requires item == "Home" && "home" in sectionIds
    ensures Step(h, NavigateTo(item), sectionIds) == Moved(h.(menuOpen := false), Some("home"))
  {
    SectionSlugs(item, "About");
  }
}

=== FILE: moderation.dfy ===
/**
 * The admin dashboard's moderation of ticket requests: the table's status
 * filter and search, the counters, and approving, rejecting, editing and
 * deleting a submission.
 *
 * A stored submission is its document id and its field map; an update merges
 * a map of fields into it, as the store's update does. The list on screen is
 * the store's content, which the dashboard's live listener keeps in step, so
 * a successful write is applied to the list directly. Each store write
 * succeeds or fails as the environment says; an update of a document that no
 * longer exists fails.
 */
module Moderation {
  import opened Wrappers
  import opened Text

  type Fields = map<string, string>

  /** A stored ticket request: its document id and its fields. */
  datatype Submission = Submission(id: string, fields: Fields)

  const Pending: string := "pending"
  const Approved: string := "approved"
  const Rejected: string := "rejected"

  /** The filter value that shows every status. */
  const AllStatuses: string := "all"

  /** The values the filter buttons set. */
  const FilterKeys: seq<string> := [Pending, Approved, Rejected, AllStatuses]

  /** The fields the edit modal loads and lets the admin change. */
  const EditableKeys: set<string> := {"fullName", "position", "email", "phone", "mpesaCode", "mpesaMessage", "amount"}

  const MissingReason: string := "Please provide a rejection reason"
  const MissingEditFields: string := "Please fill in all required fields"
  const RejectedNotice: string := "Submission rejected"
  const UpdatedNotice: string := "Submission updated successfully"
  const DeletedNotice: string := "Submission deleted successfully"

  /** A field's value; a missing field is `undefined`. */
  function Get(s: Submission, key: string): Option<string> {
    if key in s.fields then Some(s.fields[key]) else None
  }

  predicate HasStatus(s: Submission, status: string) {
    Get(s, "status") == Some(status)
  }

  /** Document ids are unique within the collection. */
  predicate UniqueIds(subs: seq<Submission>) {
    forall i, j :: 0 <= i < j < |subs| ==> subs[i].id != subs[j].id
  }

  predicate HasId(subs: seq<Submission>, id: string) {
    exists i :: 0 <= i < |subs| && subs[i].id == id
  }

  lemma SameIdSameSubmission(subs: seq<Submission>, x: Submission, y: Submission)
    requires UniqueIds(subs) && x in subs && y in subs && x.id == y.id
    ensures x == y
  {
  }

  /** `a` is `b` with some elements left out, the rest in their order. */
  predicate IsSubsequence<T(==)>(a: seq<T>, b: seq<T>)
    decreases |b|
  {
    |a| == 0
    || (|b| > 0 && ((a[0] == b[0] && IsSubsequence(a[1..], b[1..])) || IsSubsequence(a, b[1..])))
  }

  // ---------------------------------------------------------------------
  // The table: filter and search
  // ---------------------------------------------------------------------

  /** `s.fullName?.toLowerCase().includes(t)`: false when the field is missing. */
  predicate Mentions(s: Submission, key: string, t: string) {
    key in s.fields && Contains(Lower(s.fields[key]), t)
  }

  /** The search box matches a name, an email or a transaction code, letter case ignored. */
  predicate MatchesSearch(s: Submission, term: string) {
    var t := Lower(term);
    Mentions(s, "fullName", t) || Mentions(s, "email", t) || Mentions(s, "mpesaCode", t)
  }

  /** The status filter lets the submission through. */
  predicate StatusShown(s: Submission, filter: string) {
    filter == AllStatuses || HasStatus(s, filter)
  }

  /** Which submissions a selection keeps. */
  datatype Criterion =
    | ByStatus(filter: string)
    | BySearch(term: string)
    | ByStatusAndSearch(filter: string, term: string)
    | OtherThan(id: string)

  predicate Shows(c: Criterion, s: Submission) {
    match c
    case ByStatus(f) => StatusShown(s, f)
    case BySearch(t) => MatchesSearch(s, t)
    case ByStatusAndSearch(f, t) => StatusShown(s, f) && MatchesSearch(s, t)
    case OtherThan(id) => s.id != id
  }

  /** `subs.filter(...)`: the submissions the criterion keeps, in their order. */
  function Select(subs: seq<Submission>, c: Criterion): (r: seq<Submission>)
    ensures forall x :: x in r <==> x in subs && Shows(c, x)
    ensures IsSubsequence(r, subs)
    ensures |r| <= |subs|
  {
    if |subs| == 0 then []
    else
      var rest := Select(subs[1..], c);
      assert forall x :: x in subs <==> x == subs[0] || x in subs[1..];
      if Shows(c, subs[0]) then
        assert ([subs[0]] + rest)[1..] == rest;
        [subs[0]] + rest
      else rest
  }

  /** Filtering by status and then searching is one selection by both. */
  lemma {:induction false} SelectFusion(subs: seq<Submission>, f: string, t: string)
    ensures Select(Select(subs, ByStatus(f)), BySearch(t)) == Select(subs, ByStatusAndSearch(f, t))
  {
    if |subs| > 0 {
      SelectFusion(subs[1..], f, t);
      var byStatus := Select(subs, ByStatus(f));
      if StatusShown(subs[0], f) {
        assert byStatus[0] == subs[0] && byStatus[1..] == Select(subs[1..], ByStatus(f));
      }
    }
  }

  /** `filteredSubmissions`: the rows of the table, in the list's order. */
  function FilteredSubmissions(subs: seq<Submission>, filter: string, term: string): (r: seq<Submission>)
    ensures forall x :: x in r <==> x in subs && StatusShown(x, filter) && MatchesSearch(x, term)
    ensures IsSubsequence(r, subs)
  {
    SelectFusion(subs, filter, term);
    Select(Select(subs, ByStatus(filter)), BySearch(term))
  }

  /** The filter `all` keeps every submission. */
  lemma {:induction false} AllFilterKeepsEverything(subs: seq<Submission>)
    ensures Select(subs, ByStatus(AllStatuses)) == subs
  {
    if |subs| > 0 {
      AllFilterKeepsEverything(subs[1..]);
    }
  }

  /** An empty search keeps the submissions that have a name, an email or a code; not the others. */
  lemma EmptySearch(s: Submission)
    ensures MatchesSearch(s, "") <==> "fullName" in s.fields || "email" in s.fields || "mpesaCode" in s.fields
  {
    var t := Lower("");
    assert t == "";
    if "fullName" in s.fields {
      assert OccursAt(Lower(s.fields["fullName"]), t, 0);
    }
    if "email" in s.fields {
      assert OccursAt(Lower(s.fields["email"]), t, 0);
    }
    if "mpesaCode" in s.fields {
      assert OccursAt(Lower(s.fields["mpesaCode"]), t, 0);
    }
  }

  /** Typing the search in capitals finds the same submissions. */
  lemma SearchIgnoresCase(s: Submission, term: string)
    ensures MatchesSearch(s, Upper(term)) <==> MatchesSearch(s, term)
  {
    assert Lower(Upper(term)) == Lower(term);
  }

  // ---------------------------------------------------------------------
  // The counters
  // ---------------------------------------------------------------------

  /** How many submissions have the status. */
  function CountStatus(subs: seq<Submission>, status: string): nat {
    if |subs| == 0 then 0
    else (if HasStatus(subs[0], status) then 1 else 0) + CountStatus(subs[1..], status)
  }

  datatype Stats = Stats(pending: nat, approved: nat, rejected: nat, total: nat)

  /** `stats`: the counters above the table. */
  function ComputeStats(subs: seq<Submission>): (st: Stats)
    ensures st.total == |subs|
    ensures st.pending + st.approved + st.rejected <= st.total
    ensures st.pending == |Select(subs, ByStatus(Pending))|
    ensures st.approved == |Select(subs, ByStatus(Approved))|
    ensures st.rejected == |Select(subs, ByStatus(Rejected))|
  {
    CountStatusesBounded(subs);
    CountIsTabLength(subs, Pending);
    CountIsTabLength(subs, Approved);
    CountIsTabLength(subs, Rejected);
    Stats(CountStatus(subs, Pending), CountStatus(subs, Approved), CountStatus(subs, Rejected), |subs|)
  }

  /** A counter equals the number of rows its filter button shows, before any search. */
  lemma {:induction false} CountIsTabLength(subs: seq<Submission>, status: string)
    requires status != AllStatuses
    ensures CountStatus(subs, status) == |Select(subs, ByStatus(status))|
  {
    if |subs| > 0 {
      CountIsTabLength(subs[1..], status);
    }
  }

  /** A submission is counted at most once: the three counters never exceed the total. */
  lemma {:induction false} CountStatusesBounded(subs: seq<Submission>)
    ensures CountStatus(subs, Pending) + CountStatus(subs, Approved) + CountStatus(subs, Rejected) <= |subs|
  {
    if |subs| > 0 {
      CountStatusesBounded(subs[1..]);
    }
  }

  // ---------------------------------------------------------------------
  // Writes
  // ---------------------------------------------------------------------

  /** The list after merging `patch` into the document `id`; every other document is unchanged. */
  function UpdateById(subs: seq<Submission>, id: string, patch: Fields): (r: seq<Submission>)
    ensures |r| == |subs|
    ensures forall i :: 0 <= i < |r| ==> r[i].id == subs[i].id
    ensures forall i :: 0 <= i < |r| && subs[i].id != id ==> r[i] == subs[i]
    ensures forall i :: 0 <= i < |r| && subs[i].id == id ==>
      (forall k :: k in patch ==> Get(r[i], k) == Some(patch[k]))
      && (forall k :: k !in patch ==> Get(r[i], k) == Get(subs[i], k))
  {
    seq(|subs|, i requires 0 <= i < |subs| =>
      if subs[i].id == id then subs[i].(fields := subs[i].fields + patch) else subs[i])
  }

  /** The list after deleting the document `id`. */
  function RemoveById(subs: seq<Submission>, id: string): (r: seq<Submission>)
    ensures forall x :: x in r <==> x in subs && x.id != id
    ensures IsSubsequence(r, subs)
  {
    Select(subs, OtherThan(id))
  }

  /** What the handlers read from outside: the confirm dialog, the signed-in admin, the clock, randomness, the store. */
  datatype Env = Env(
    confirmed: bool,
    adminEmail: string,
    nowIso: string,
    nowMs: nat,
    randomDigits: string,
    stored: bool,
    errorMessage: string)

  /** The ticket id: `TKT-`, the clock in milliseconds, `-`, random base-36 digits in capitals. */
  function TicketId(nowMs: nat, randomDigits: string): (t: string)
    ensures StartsWith(t, "TKT-")
  {
    "TKT-" + Decimal(nowMs) + "-" + Upper(randomDigits)
  }

  /** The pieces of a ticket id between its dashes. */
  lemma TicketIdPieces(nowMs: nat, randomDigits: string)
    requires '-' !in randomDigits
    ensures Split(TicketId(nowMs, randomDigits), '-') == ["TKT", Decimal(nowMs), Upper(randomDigits)]
  {
    var d := Decimal(nowMs);
    var u := Upper(randomDigits);
    DigitsHaveNo(d, '-');
    UpperKeepsDashFree(randomDigits);
    var rest := d + ['-'] + u;
    TicketIdShape(TicketId(nowMs, randomDigits), d, u);
    SplitAfterFirst("TKT", rest, '-');
    SplitAfterFirst(d, u, '-');
    SplitOfSeparatorFree(u, '-');
  }

  lemma DigitsHaveNo(d: string, c: char)
    requires AllDigits(d) && !IsDigit(c)
    ensures c !in d
  {
    assert forall k :: 0 <= k < |d| ==> d[k] != c;
  }

  lemma UpperKeepsDashFree(s: string)
    requires '-' !in s
    ensures '-' !in Upper(s)
  {
    var u := Upper(s);
    forall k | 0 <= k < |u|
      ensures u[k] != '-'
    {
      assert u[k] == UpperChar(s[k]);
    }
  }

  lemma TicketIdShape(t: string, d: string, u: string)
    requires t == "TKT-" + d + "-" + u
    ensures t == "TKT" + ['-'] + (d + ['-'] + u)
  {
    assert "TKT-" == "TKT" + ['-'];
  }

  /** Approvals made at different milliseconds get different ticket ids. */
  lemma TicketIdsDifferAcrossTime(t1: nat, r1: string, t2: nat, r2: string)
    requires '-' !in r1 && '-' !in r2
    requires t1 != t2
    ensures TicketId(t1, r1) != TicketId(t2, r2)
  {
    TicketIdPieces(t1, r1);
    TicketIdPieces(t2, r2);
    if Decimal(t1) == Decimal(t2) {
      DecimalInjective(t1, t2);
    }
  }

  /** The fields an approval writes. */
  function ApprovalPatch(env: Env): (p: Fields)
    ensures p.Keys == {"status", "approvedAt", "approvedBy", "ticketId", "updatedAt"}
    ensures p["status"] == Approved && p["approvedBy"] == env.adminEmail
    ensures p["approvedAt"] == env.nowIso && p["updatedAt"] == env.nowIso
    ensures StartsWith(p["ticketId"], "TKT-")
  {
    map["status" := Approved, "approvedAt" := env.nowIso, "approvedBy" := env.adminEmail,
        "ticketId" := TicketId(env.nowMs, env.randomDigits), "updatedAt" := env.nowIso]
  }

  /** The fields a rejection writes; the reason is stored as typed. */
  function RejectionPatch(env: Env, reason: string): (p: Fields)
    ensures p.Keys == {"status", "rejectedAt", "rejectedBy", "rejectionReason", "updatedAt"}
    ensures p["status"] == Rejected && p["rejectionReason"] == reason && p["rejectedBy"] == env.adminEmail
    ensures p["rejectedAt"] == env.nowIso && p["updatedAt"] == env.nowIso
  {
    map["status" := Rejected, "rejectedAt" := env.nowIso, "rejectedBy" := env.adminEmail,
        "rejectionReason" := reason, "updatedAt" := env.nowIso]
  }

  /** The fields an edit writes: the edited fields, then who edited and when. */
  function EditPatch(env: Env, editData: Fields): (p: Fields)
    requires editData.Keys <= EditableKeys
    ensures "status" !in p
    ensures forall k :: k in editData ==> k in p && p[k] == editData[k]
    ensures p.Keys == editData.Keys + {"updatedAt", "updatedBy"}
    ensures p["updatedAt"] == env.nowIso && p["updatedBy"] == env.adminEmail
  {
    editData + map["updatedAt" := env.nowIso, "updatedBy" := env.adminEmail]
  }

  // ---------------------------------------------------------------------
  // The dashboard
  // ---------------------------------------------------------------------

  datatype Notice = Notice(message: string, success: bool)

  datatype Dashboard = Dashboard(
    submissions: seq<Submission>,
    filter: string,
    searchTerm: string,
    selected: Option<Submission>,
    rejectionReason: string,
    showReject: bool,
    showEdit: bool,
    showDelete: bool,
    editData: Fields,
    notice: Option<Notice>)

  /** The dashboard once signed in, over the listener's first snapshot. */
  function InitialDashboard(subs: seq<Submission>): (d: Dashboard)
    requires UniqueIds(subs)
    ensures Inv(d) && d.filter == Pending
  {
    Dashboard(subs, Pending, "", None, "", false, false, false, map[], None)
  }

  function ErrorNotice(prefix: string, env: Env): Notice {
    Notice(prefix + env.errorMessage, false)
  }

  /**
   * `handleApprove`: nothing unless confirmed; then mark the submission
   * approved with a ticket id, and close its details on success.
   */
  function Approve(d: Dashboard, sub: Submission, env: Env): (d': Dashboard)
    ensures !env.confirmed ==> d' == d
    ensures env.confirmed && env.stored && HasId(d.submissions, sub.id) ==>
      d' == d.(submissions := UpdateById(d.submissions, sub.id, ApprovalPatch(env)), selected := None,
               notice := d'.notice)
      && d'.notice.Some? && d'.notice.value.success
    ensures env.confirmed && !(env.stored && HasId(d.submissions, sub.id)) ==>
      d' == d.(notice := Some(ErrorNotice("Error approving submission: ", env)))
  {
    if !env.confirmed then d
    else if env.stored && HasId(d.submissions, sub.id) then
      d.(submissions := UpdateById(d.submissions, sub.id, ApprovalPatch(env)), selected := None,
         notice := Some(Notice("Submission approved for " + Get(sub, "fullName").GetOr("undefined"), true)))
    else d.(notice := Some(ErrorNotice("Error approving submission: ", env)))
  }

  /**
   * `handleReject`: a blank reason only brings up a notice; otherwise the
   * selected submission is marked rejected with the reason as typed, and on
   * success the modal closes and the reason and selection are cleared.
   */
  function Reject(d: Dashboard, env: Env): (d': Dashboard)
    ensures IsBlank(d.rejectionReason) ==> d' == d.(notice := Some(Notice(MissingReason, false)))
    ensures !IsBlank(d.rejectionReason) && d.selected.Some? && env.stored && HasId(d.submissions, d.selected.value.id) ==>
      d'.submissions == UpdateById(d.submissions, d.selected.value.id, RejectionPatch(env, d.rejectionReason))
      && !d'.showReject && d'.rejectionReason == "" && d'.selected.None?
    ensures !IsBlank(d.rejectionReason) && d.selected.Some? && env.stored && HasId(d.submissions, d.selected.value.id) ==>
      d' == d.(submissions := d'.submissions, showReject := false, rejectionReason := "", selected := None,
               notice := Some(Notice(RejectedNotice, true)))
    ensures !IsBlank(d.rejectionReason) && !(d.selected.Some? && env.stored && HasId(d.submissions, d.selected.value.id)) ==>
      d' == d.(notice := Some(ErrorNotice("Error rejecting submission: ", env)))
  {
    if IsBlank(d.rejectionReason) then d.(notice := Some(Notice(MissingReason, false)))
    else if d.selected.Some? && env.stored && HasId(d.submissions, d.selected.value.id) then
      d.(submissions := UpdateById(d.submissions, d.selected.value.id, RejectionPatch(env, d.rejectionReason)),
         showReject := false, rejectionReason := "", selected := None,
         notice := Some(Notice(RejectedNotice, true)))
    else d.(notice := Some(ErrorNotice("Error rejecting submission: ", env)))
  }

  /** The edit data is enough to save: name, email and phone are filled in. */
  predicate EditComplete(editData: Fields) {
    && "fullName" in editData && editData["fullName"] != ""
    && "email" in editData && editData["email"] != ""
    && "phone" in editData && editData["phone"] != ""
  }

  /**
   * `handleEdit`: without a name, email or phone only a notice; otherwise
   * the edited fields are merged into the selected submission, and on
   * success the modal closes and the edit data is cleared.
   */
  function Edit(d: Dashboard, env: Env): (d': Dashboard)
    requires d.editData.Keys <= EditableKeys
    ensures !EditComplete(d.editData) ==> d' == d.(notice := Some(Notice(MissingEditFields, false)))
    ensures EditComplete(d.editData) && d.selected.Some? && env.stored && HasId(d.submissions, d.selected.value.id) ==>
      d'.submissions == UpdateById(d.submissions, d.selected.value.id, EditPatch(env, d.editData))
      && !d'.showEdit && d'.selected.None? && d'.editData == map[]
    ensures EditComplete(d.editData) && d.selected.Some? && env.stored && HasId(d.submissions, d.selected.value.id) ==>
      d' == d.(submissions := d'.submissions, showEdit := false, selected := None, editData := map[],
               notice := Some(Notice(UpdatedNotice, true)))
    ensures EditComplete(d.editData) && !(d.selected.Some? && env.stored && HasId(d.submissions, d.selected.value.id)) ==>
      d' == d.(notice := Some(ErrorNotice("Error updating submission: ", env)))
  {
    if !EditComplete(d.editData) then
      d.(notice := Some(Notice(MissingEditFields, false)))
    else if d.selected.Some? && env.stored && HasId(d.submissions, d.selected.value.id) then
      d.(submissions := UpdateById(d.submissions, d.selected.value.id, EditPatch(env, d.editData)),
         showEdit := false, selected := None, editData := map[],
         notice := Some(Notice(UpdatedNotice, true)))
    else d.(notice := Some(ErrorNotice("Error updating submission: ", env)))
  }

  /** `handleDelete`: the selected submission is removed; on success the modal closes. */
  function Delete(d: Dashboard, env: Env): (d': Dashboard)
    ensures d.selected.Some? && env.stored ==>
      d'.submissions == RemoveById(d.submissions, d.selected.value.id)
      && (forall x :: x in d'.submissions ==> x.id != d.selected.value.id)
      && !d'.showDelete && d'.selected.None?
    ensures d.selected.Some? && env.stored ==>
      d' == d.(submissions := d'.submissions, showDelete := false, selected := None,
               notice := Some(Notice(DeletedNotice, true)))
    ensures !(d.selected.Some? && env.stored) ==> d' == d.(notice := Some(ErrorNotice("Error deleting submission: ", env)))
  {
    if d.selected.Some? && env.stored then
      d.(submissions := RemoveById(d.submissions, d.selected.value.id), showDelete := false, selected := None,
         notice := Some(Notice(DeletedNotice, true)))
    else d.(notice := Some(ErrorNotice("Error deleting submission: ", env)))
  }

  /** The edit data loaded from a submission: its editable fields that are set. */
  function EditDataOf(s: Submission): (e: Fields)
    ensures e.Keys <= EditableKeys
    ensures forall k :: k in EditableKeys ==> Get(s, k) == (if k in e then Some(e[k]) else None)
  {
    map k | k in EditableKeys && k in s.fields :: s.fields[k]
  }

  /** `openEditModal`: select the submission and load its fields into the edit modal. */
  function OpenEditModal(d: Dashboard, s: Submission): (d': Dashboard)
    ensures d'.showEdit && d'.selected == Some(s) && d'.editData == EditDataOf(s)
    ensures d'.submissions == d.submissions
  {
    d.(selected := Some(s), editData := EditDataOf(s), showEdit := true)
  }

  /** Something covers the table: a modal, or the details of a selected submission. */
  predicate Overlay(d: Dashboard) {
    d.showReject || d.showEdit || d.showDelete || d.selected.Some?
  }

  /** The details modal is rendered. */
  predicate DetailsOpen(d: Dashboard) {
    d.selected.Some? && !d.showReject && !d.showEdit && !d.showDelete
  }

  function Rows(d: Dashboard): seq<Submission> {
    FilteredSubmissions(d.submissions, d.filter, d.searchTerm)
  }

  /** What the dashboard keeps true between actions. */
  predicate Inv(d: Dashboard) {
    UniqueIds(d.submissions)
    && !(d.showReject && d.showEdit) && !(d.showReject && d.showDelete) && !(d.showEdit && d.showDelete)
    && (d.showReject || d.showEdit || d.showDelete ==> d.selected.Some?)
    && (d.selected.Some? ==> d.selected.value in d.submissions)
    && (d.showReject ==> HasStatus(d.selected.value, Pending))
    && (!d.showReject ==> d.rejectionReason == "")
    && d.editData.Keys <= EditableKeys
    && (!d.showEdit ==> d.editData == map[])
  }

  /** The actions that write to the store. */
  predicate Writes(a: Action) {
    a.ApproveRow? || a.ApproveSelected? || a.ConfirmReject? || a.SaveEdit? || a.ConfirmDelete?
  }

  /** An admin's click or keystroke. */
  datatype Action =
    | SetFilter(filter: string)
    | Search(term: string)
    | ViewRow(row: nat)
    | ApproveRow(row: nat)
    | RejectRow(row: nat)
    | EditRow(row: nat)
    | DeleteRow(row: nat)
    | CloseDetails
    | ApproveSelected
    | RejectSelected
    | ResubmitSelected
    | TypeReason(reason: string)
    | CancelReject
    | ConfirmReject
    | TypeEdit(key: string, value: string)
    | CancelEdit
    | SaveEdit
    | CancelDelete
    | ConfirmDelete

  /**
   * An action as the rendered dashboard lets it happen: the filter buttons,
   * the search box and the table sit under any modal; approve and reject are
   * offered for pending submissions only, resubmission for rejected ones;
   * the reject button is disabled while the reason is blank.
   */
  function Dispatch(d: Dashboard, a: Action, env: Env): (d': Dashboard)
    requires Inv(d)
    ensures !Writes(a) ==> d'.submissions == d.submissions
  {
    var rows := Rows(d);
    match a
    case SetFilter(f) => if !Overlay(d) && f in FilterKeys then d.(filter := f) else d
    case Search(t) => if !Overlay(d) then d.(searchTerm := t) else d
    case ViewRow(i) => if !Overlay(d) && i < |rows| then d.(selected := Some(rows[i])) else d
    case ApproveRow(i) =>
      if !Overlay(d) && i < |rows| && HasStatus(rows[i], Pending) then Approve(d, rows[i], env) else d
    case RejectRow(i) =>
      if !Overlay(d) && i < |rows| && HasStatus(rows[i], Pending) then d.(selected := Some(rows[i]), showReject := true)
      else d
    case EditRow(i) => if !Overlay(d) && i < |rows| then OpenEditModal(d, rows[i]) else d
    case DeleteRow(i) => if !Overlay(d) && i < |rows| then d.(selected := Some(rows[i]), showDelete := true) else d
    case CloseDetails => if DetailsOpen(d) then d.(selected := None) else d
    case ApproveSelected =>
      if DetailsOpen(d) && HasStatus(d.selected.value, Pending) then Approve(d, d.selected.value, env) else d
    case RejectSelected =>
      if DetailsOpen(d) && HasStatus(d.selected.value, Pending) then d.(showReject := true) else d
    case ResubmitSelected =>
      if DetailsOpen(d) && HasStatus(d.selected.value, Rejected) then OpenEditModal(d, d.selected.value) else d
    case TypeReason(t) => if d.showReject then d.(rejectionReason := t) else d
    case CancelReject => if d.showReject then d.(showReject := false, rejectionReason := "") else d
    case ConfirmReject => if d.showReject && !IsBlank(d.rejectionReason) then Reject(d, env) else d
    case TypeEdit(k, v) => if d.showEdit && k in EditableKeys then d.(editData := d.editData[k := v]) else d
    case CancelEdit => if d.showEdit then d.(showEdit := false, editData := map[]) else d
    case SaveEdit => if d.showEdit then Edit(d, env) else d
    case CancelDelete => if d.showDelete then d.(showDelete := false, selected := None) else d
    case ConfirmDelete => if d.showDelete then Delete(d, env) else d
  }

  /** Merging fields into one document keeps the ids unique. */
  lemma UpdateKeepsUniqueIds(subs: seq<Submission>, id: string, patch: Fields)
    requires UniqueIds(subs)
    ensures UniqueIds(UpdateById(subs, id, patch))
  {
  }

  /** Deleting a document keeps the ids unique. */
  lemma {:induction false} SelectKeepsUniqueIds(subs: seq<Submission>, c: Criterion)
    requires UniqueIds(subs)
    ensures UniqueIds(Select(subs, c))
  {
    if |subs| > 0 {
      SelectKeepsUniqueIds(subs[1..], c);
      var rest := Select(subs[1..], c);
      assert forall x :: x in rest ==> x in subs[1..];
      assert forall x :: x in rest ==> x.id != subs[0].id by {
        forall x | x in rest
          ensures x.id != subs[0].id
        {
          var j :| 0 <= j < |subs[1..]| && subs[1..][j] == x;
          assert subs[j + 1] == x;
        }
      }
      if Shows(c, subs[0]) {
        assert Select(subs, c) == [subs[0]] + rest;
        ConsKeepsUniqueIds(subs[0], rest);
      } else {
        assert Select(subs, c) == rest;
      }
    }
  }

  lemma ConsKeepsUniqueIds(x: Submission, rest: seq<Submission>)
    requires UniqueIds(rest) && forall y :: y in rest ==> y.id != x.id
    ensures UniqueIds([x] + rest)
  {
    var r := [x] + rest;
    forall i, j | 0 <= i < j < |r|
      ensures r[i].id != r[j].id
    {
      assert r[j] == rest[j - 1];
      if i > 0 {
        assert r[i] == rest[i - 1];
      }
    }
  }

  /** Every action keeps the dashboard's invariant. */
  lemma DispatchPreservesInv(d: Dashboard, a: Action, env: Env)
    requires Inv(d)
    ensures Inv(Dispatch(d, a, env))
  {
    if !Writes(a) {
      NavigationKeepsInv(d, a, env);
    } else if a.ApproveRow? || a.ApproveSelected? {
      ApproveKeepsInv(d, a, env);
    } else if a.ConfirmReject? {
      RejectKeepsInv(d, env);
    } else if a.SaveEdit? {
      EditKeepsInv(d, env);
    } else {
      DeleteKeepsInv(d, env);
    }
  }

  lemma NavigationKeepsInv(d: Dashboard, a: Action, env: Env)
    requires Inv(d) && !Writes(a)
    ensures Inv(Dispatch(d, a, env))
  {
    var rows := Rows(d);
    assert forall i :: 0 <= i < |rows| ==> rows[i] in d.submissions;
  }

  lemma ApproveKeepsInv(d: Dashboard, a: Action, env: Env)
    requires Inv(d) && (a.ApproveRow? || a.ApproveSelected?)
    ensures Inv(Dispatch(d, a, env))
  {
    var d' := Dispatch(d, a, env);
    var rows := Rows(d);
    var target: Submission;
    if a.ApproveRow? && !Overlay(d) && a.row < |rows| && HasStatus(rows[a.row], Pending) {
      target := rows[a.row];
    } else if a.ApproveSelected? && DetailsOpen(d) && HasStatus(d.selected.value, Pending) {
      target := d.selected.value;
    } else {
      assert d' == d;
      return;
    }
    assert d' == Approve(d, target, env);
    UpdateKeepsUniqueIds(d.submissions, target.id, ApprovalPatch(env));
  }

  lemma RejectKeepsInv(d: Dashboard, env: Env)
    requires Inv(d)
    ensures Inv(Dispatch(d, ConfirmReject, env))
  {
    var d' := Dispatch(d, ConfirmReject, env);
    if d.showReject && !IsBlank(d.rejectionReason) {
      assert d' == Reject(d, env);
      UpdateKeepsUniqueIds(d.submissions, d.selected.value.id, RejectionPatch(env, d.rejectionReason));
    } else {
      assert d' == d;
    }
  }

  lemma EditKeepsInv(d: Dashboard, env: Env)
    requires Inv(d)
    ensures Inv(Dispatch(d, SaveEdit, env))
  {
    var d' := Dispatch(d, SaveEdit, env);
    if d.showEdit {
      assert d' == Edit(d, env);
      UpdateKeepsUniqueIds(d.submissions, d.selected.value.id, EditPatch(env, d.editData));
    } else {
      assert d' == d;
    }
  }

  lemma DeleteKeepsInv(d: Dashboard, env: Env)
    requires Inv(d)
    ensures Inv(Dispatch(d, ConfirmDelete, env))
  {
    var d' := Dispatch(d, ConfirmDelete, env);
    if d.showDelete {
      assert d' == Delete(d, env);
      SelectKeepsUniqueIds(d.submissions, OtherThan(d.selected.value.id));
    } else {
      assert d' == d;
    }
  }

  /** A status may stay as it is, or move from pending to approved or rejected. */
  predicate Allowed(before: Option<string>, after: Option<string>) {
    before == after || (before == Some(Pending) && (after == Some(Approved) || after == Some(Rejected)))
  }

  /** Every submission still listed was listed before, with its status at most one step further. */
  predicate StatusesAdvance(before: seq<Submission>, after: seq<Submission>) {
    forall y :: y in after ==>
      exists x :: x in before && x.id == y.id && Allowed(Get(x, "status"), Get(y, "status"))
  }

  /** An update that writes no status, or moves a pending submission on, lets statuses advance only. */
  lemma UpdateAdvances(subs: seq<Submission>, target: Submission, patch: Fields)
    requires UniqueIds(subs) && target in subs
    requires "status" in patch ==>
      HasStatus(target, Pending) && (patch["status"] == Approved || patch["status"] == Rejected)
    ensures StatusesAdvance(subs, UpdateById(subs, target.id, patch))
  {
    var after := UpdateById(subs, target.id, patch);
    forall y | y in after
      ensures exists x :: x in subs && x.id == y.id && Allowed(Get(x, "status"), Get(y, "status"))
    {
      var i :| 0 <= i < |after| && after[i] == y;
      if subs[i].id == target.id {
        SameIdSameSubmission(subs, subs[i], target);
      }
      assert subs[i] in subs && subs[i].id == y.id;
      assert Allowed(Get(subs[i], "status"), Get(y, "status"));
    }
  }

  lemma Unchanged(subs: seq<Submission>)
    ensures StatusesAdvance(subs, subs)
  {
    forall y | y in subs
      ensures exists x :: x in subs && x.id == y.id && Allowed(Get(x, "status"), Get(y, "status"))
    {
      assert Allowed(Get(y, "status"), Get(y, "status"));
    }
  }

  /**
   * Through the dashboard, statuses only move forward: a pending submission
   * may become approved or rejected, nothing else changes a status, and no
   * submission appears that was not there.
   */
  lemma DispatchAdvancesStatuses(d: Dashboard, a: Action, env: Env)
    requires Inv(d)
    ensures StatusesAdvance(d.submissions, Dispatch(d, a, env).submissions)
  {
    if !Writes(a) {
      Unchanged(d.submissions);
    } else if a.ApproveRow? || a.ApproveSelected? {
      ApproveAdvances(d, a, env);
    } else if a.ConfirmReject? {
      RejectAdvances(d, env);
    } else if a.SaveEdit? {
      EditAdvances(d, env);
    } else {
      DeleteAdvances(d, env);
    }
  }

  lemma ApproveAdvances(d: Dashboard, a: Action, env: Env)
    requires Inv(d) && (a.ApproveRow? || a.ApproveSelected?)
    ensures StatusesAdvance(d.submissions, Dispatch(d, a, env).submissions)
  {
    var d' := Dispatch(d, a, env);
    var rows := Rows(d);
    var target: Submission;
    if a.ApproveRow? && !Overlay(d) && a.row < |rows| && HasStatus(rows[a.row], Pending) {
      target := rows[a.row];
      assert target in d.submissions;
    } else if a.ApproveSelected? && DetailsOpen(d) && HasStatus(d.selected.value, Pending) {
      target := d.selected.value;
    } else {
      assert d' == d;
      Unchanged(d.submissions);
      return;
    }
    assert d' == Approve(d, target, env);
    ApproveTargetAdvances(d, target, env);
  }

  lemma ApproveTargetAdvances(d: Dashboard, target: Submission, env: Env)
    requires UniqueIds(d.submissions) && target in d.submissions && HasStatus(target, Pending)
    ensures StatusesAdvance(d.submissions, Approve(d, target, env).submissions)
  {
    if env.confirmed && env.stored && HasId(d.submissions, target.id) {
      UpdateAdvances(d.submissions, target, ApprovalPatch(env));
    } else {
      Unchanged(d.submissions);
    }
  }

  lemma RejectAdvances(d: Dashboard, env: Env)
    requires Inv(d)
    ensures StatusesAdvance(d.submissions, Dispatch(d, ConfirmReject, env).submissions)
  {
    var d' := Dispatch(d, ConfirmReject, env);
    if d.showReject && !IsBlank(d.rejectionReason) {
      assert d' == Reject(d, env);
      var sel := d.selected.value;
      if env.stored && HasId(d.submissions, sel.id) {
        assert d'.submissions == UpdateById(d.submissions, sel.id, RejectionPatch(env, d.rejectionReason));
        UpdateAdvances(d.submissions, sel, RejectionPatch(env, d.rejectionReason));
      } else {
        Unchanged(d.submissions);
      }
    } else {
      assert d' == d;
      Unchanged(d.submissions);
    }
  }

  lemma EditAdvances(d: Dashboard, env: Env)
    requires Inv(d)
    ensures StatusesAdvance(d.submissions, Dispatch(d, SaveEdit, env).submissions)
  {
    var d' := Dispatch(d, SaveEdit, env);
    if d.showEdit {
      assert d' == Edit(d, env);
      var sel := d.selected.value;
      if EditComplete(d.editData) && env.stored && HasId(d.submissions, sel.id) {
        assert d'.submissions == UpdateById(d.submissions, sel.id, EditPatch(env, d.editData));
        UpdateAdvances(d.submissions, sel, EditPatch(env, d.editData));
      } else {
        Unchanged(d.submissions);
      }
    } else {
      assert d' == d;
      Unchanged(d.submissions);
    }
  }

  lemma DeleteAdvances(d: Dashboard, env: Env)
    requires Inv(d)
    ensures StatusesAdvance(d.submissions, Dispatch(d, ConfirmDelete, env).submissions)
  {
    var after := Dispatch(d, ConfirmDelete, env).submissions;
    forall y | y in after
      ensures exists x :: x in d.submissions && x.id == y.id && Allowed(Get(x, "status"), Get(y, "status"))
    {
      assert y in d.submissions && Allowed(Get(y, "status"), Get(y, "status"));
    }
  }

  /** An approval is final: no action changes an approved submission's status. */
  lemma ApprovalIsFinal(d: Dashboard, a: Action, env: Env, x: Submission, y: Submission)
    requires Inv(d) && x in d.submissions && HasStatus(x, Approved)
    requires y in Dispatch(d, a, env).submissions && y.id == x.id
    ensures HasStatus(y, Approved)
  {
    var after := Dispatch(d, a, env).submissions;
    DispatchAdvancesStatuses(d, a, env);
    ApprovedStays(d.submissions, after, x, y);
  }

  lemma ApprovedStays(before: seq<Submission>, after: seq<Submission>, x: Submission, y: Submission)
    requires UniqueIds(before) && StatusesAdvance(before, after)
    requires x in before && HasStatus(x, Approved) && y in after && y.id == x.id
    ensures HasStatus(y, Approved)
  {
    var x' :| x' in before && x'.id == y.id && Allowed(Get(x', "status"), Get(y, "status"));
    SameIdSameSubmission(before, x, x');
  }

  /** A blank reason cannot reject: the button stays disabled, and the handler itself only warns. */
  lemma BlankReasonNeverRejects(d: Dashboard, env: Env)
    requires Inv(d) && IsBlank(d.rejectionReason)
    ensures Dispatch(d, ConfirmReject, env) == d
    ensures Reject(d, env).submissions == d.submissions
  {
  }
}

=== FILE: mpesasms.dfy ===
/**
 * Reading an M-Pesa confirmation SMS, as the subscription page does before it
 * files a ticket request: the transaction code and the amount paid.
 *
 * Both are regular-expression searches. Each is modelled twice: once as the
 * expression is written (the leftmost position at which one of its
 * alternatives matches, alternatives tried in order, quantifiers greedy), and
 * once as a direct scan. A lemma shows the two agree.
 */
module MpesaSms {
  import opened Wrappers
  import opened Text

  /** What the code extractor returns when the message holds no code. */
  const UnknownCode: string := "UNKNOWN"

  /** The amount used when neither the message nor the plan gives one. */
  const ZeroAmount: string := "0"

  // ---------------------------------------------------------------------
  // The transaction code: /\b[A-Z]{2}\d{8}\b|\b[A-Z0-9]{10}\b/
  // ---------------------------------------------------------------------

  /** `\b` at position `p`: exactly one of the neighbouring characters is a word character. */
  predicate WordBoundary(s: string, p: nat)
    requires p <= |s|
  {
    (p > 0 && IsWordChar(s[p - 1])) != (p < |s| && IsWordChar(s[p]))
  }

  predicate CodeChar(c: char) {
    IsUpper(c) || IsDigit(c)
  }

  /** The first alternative matches at `p`: two capitals and eight digits, as a whole word. */
  predicate LetterCodeAt(s: string, p: nat) {
    p + 10 <= |s| && WordBoundary(s, p)
    && IsUpper(s[p]) && IsUpper(s[p + 1])
    && (forall i :: p + 2 <= i < p + 10 ==> IsDigit(s[i]))
    && WordBoundary(s, p + 10)
  }

  /** The second alternative matches at `p`: ten capitals or digits, as a whole word. */
  predicate MixedCodeAt(s: string, p: nat) {
    p + 10 <= |s| && WordBoundary(s, p)
    && (forall i :: p <= i < p + 10 ==> CodeChar(s[i]))
    && WordBoundary(s, p + 10)
  }

  /** The code expression matches at `p`, by either alternative. */
  predicate CodeAt(s: string, p: nat) {
    LetterCodeAt(s, p) || MixedCodeAt(s, p)
  }

  /** The first alternative is a special case of the second: both match the same ten characters. */
  lemma LetterCodeIsMixedCode(s: string, p: nat)
    requires LetterCodeAt(s, p)
    ensures MixedCodeAt(s, p)
  {
  }

  /** The leftmost position at or after `p` where a code starts, by a scan for the second alternative. */
  function FindCode(s: string, p: nat): (k: Option<nat>)
    ensures k.Some? ==> p <= k.value && k.value + 10 <= |s| && CodeAt(s, k.value)
    ensures k.Some? ==> forall j :: p <= j < k.value ==> !CodeAt(s, j)
    ensures k.None? ==> forall j :: p <= j ==> !CodeAt(s, j)
    decreases |s| - p
  {
    if p + 10 > |s| then None
    else if MixedCodeAt(s, p) then Some(p)
    else
      assert !LetterCodeAt(s, p) by {
        if LetterCodeAt(s, p) {
          LetterCodeIsMixedCode(s, p);
        }
      }
      FindCode(s, p + 1)
  }

  /**
   * `extractMpesaCode`: the leftmost ten-character code in the message, or
   * `UNKNOWN` when there is none.
   */
  function ExtractMpesaCode(message: string): (code: string)
    ensures code == UnknownCode <==> forall j :: !CodeAt(message, j)
    ensures code != UnknownCode ==>
      exists k: nat :: CodeAt(message, k) && code == message[k..k + 10]
                  && forall j :: 0 <= j < k ==> !CodeAt(message, j)
    ensures code != UnknownCode ==> |code| == 10 && forall i :: 0 <= i < 10 ==> CodeChar(code[i])
  {
    match FindCode(message, 0)
    case None => UnknownCode
    case Some(k) =>
      assert |message[k..k + 10]| != |UnknownCode|;
      message[k..k + 10]
  }

  // ---------------------------------------------------------------------
  // The amount: /(?:Ksh\.?|KES\.?|)\s*([\d,]+\.?\d*)/i
  // ---------------------------------------------------------------------

  /** A character of the first run of the captured amount, `[\d,]`. */
  predicate NumChar(c: char) {
    IsDigit(c) || c == ','
  }

  predicate HasNoNumChar(w: string) {
    forall i :: 0 <= i < |w| ==> !NumChar(w[i])
  }

  /** The currency markers of the expression, in the order its alternatives are tried. */
  const CurrencyMarkers: seq<string> := ["Ksh.", "Ksh", "KES.", "KES"]

  /** The alternatives of the amount expression as written: the markers, then the empty one. */
  const AmountPrefixes: seq<string> := CurrencyMarkers + [""]

  /** `w` occurs at `p` with letter case ignored (the `i` flag). */
  predicate PrefixAt(s: string, p: nat, w: string) {
    p + |w| <= |s| && Lower(s[p..p + |w|]) == Lower(w)
  }

  /** `\s*` from `i`: the end of the run of whitespace there. */
  function SkipSpaces(s: string, i: nat): (j: nat)
    requires i <= |s|
    ensures i <= j <= |s|
    ensures forall k :: i <= k < j ==> IsWhitespace(s[k])
    ensures j < |s| ==> !IsWhitespace(s[j])
    decreases |s| - i
  {
    if i < |s| && IsWhitespace(s[i]) then SkipSpaces(s, i + 1) else i
  }

  /**
   * Where the capture group starts when the expression is tried at `p` with
   * the alternatives `ws` in order: the first alternative that occurs at `p`
   * and is followed by whitespace and a digit or comma.
   */
  function MatchAt(s: string, p: nat, ws: seq<string>): (q: Option<nat>)
    requires p <= |s|
    ensures q.Some? ==> p <= q.value < |s| && NumChar(s[q.value])
  {
    if |ws| == 0 then None
    else if PrefixAt(s, p, ws[0]) && SkipSpaces(s, p + |ws[0]|) < |s| && NumChar(s[SkipSpaces(s, p + |ws[0]|)]) then
      Some(SkipSpaces(s, p + |ws[0]|))
    else MatchAt(s, p, ws[1..])
  }

  /** A match starts with one of the alternatives, followed by whitespace up to the capture. */
  lemma {:induction false} MatchAlternative(s: string, p: nat, ws: seq<string>) returns (k: nat)
    requires p <= |s|
    requires MatchAt(s, p, ws).Some?
    ensures k < |ws| && PrefixAt(s, p, ws[k]) && MatchAt(s, p, ws).value == SkipSpaces(s, p + |ws[k]|)
  {
    if PrefixAt(s, p, ws[0]) && SkipSpaces(s, p + |ws[0]|) < |s| && NumChar(s[SkipSpaces(s, p + |ws[0]|)]) {
      k := 0;
    } else {
      var k' := MatchAlternative(s, p, ws[1..]);
      k := k' + 1;
    }
  }

  /** The leftmost position at or after `p` where the expression matches. */
  function SearchFrom(s: string, p: nat, ws: seq<string>): (m: Option<nat>)
    requires p <= |s|
    ensures m.Some? ==> p <= m.value <= |s| && MatchAt(s, m.value, ws).Some?
    ensures m.Some? ==> forall j :: p <= j < m.value ==> MatchAt(s, j, ws).None?
    ensures m.None? ==> forall j :: p <= j <= |s| ==> MatchAt(s, j, ws).None?
    decreases |s| - p
  {
    if MatchAt(s, p, ws).Some? then Some(p)
    else if p == |s| then None
    else SearchFrom(s, p + 1, ws)
  }

  /** Where the capture group of the leftmost match starts. */
  function CaptureStart(s: string, ws: seq<string>): Option<nat> {
    match SearchFrom(s, 0, ws)
    case None => None
    case Some(m) => MatchAt(s, m, ws)
  }

  /** The end of the run of characters from `i` on that satisfy `[\d,]`. */
  function NumRunEnd(s: string, i: nat): (j: nat)
    requires i <= |s|
    ensures i <= j <= |s|
    ensures forall k :: i <= k < j ==> NumChar(s[k])
    ensures j < |s| ==> !NumChar(s[j])
    decreases |s| - i
  {
    if i < |s| && NumChar(s[i]) then NumRunEnd(s, i + 1) else i
  }

  /** The end of the run of digits from `i` on. */
  function DigitRunEnd(s: string, i: nat): (j: nat)
    requires i <= |s|
    ensures i <= j <= |s|
    ensures forall k :: i <= k < j ==> IsDigit(s[k])
    ensures j < |s| ==> !IsDigit(s[j])
    decreases |s| - i
  {
    if i < |s| && IsDigit(s[i]) then DigitRunEnd(s, i + 1) else i
  }

  /** The point between the two runs of the capture, `\.?`: one past a full stop if there is one. */
  function PointEnd(s: string, a: nat): (b: nat)
    requires a <= |s|
    ensures a <= b <= |s| && b <= a + 1
    ensures b == a + 1 ==> s[a] == '.'
  {
    if a < |s| && s[a] == '.' then a + 1 else a
  }

  /** The end of the capture group `([\d,]+\.?\d*)` starting at `q`, every quantifier greedy. */
  function CaptureEnd(s: string, q: nat): nat
    requires q <= |s|
  {
    DigitRunEnd(s, PointEnd(s, NumRunEnd(s, q)))
  }

  /** `s.replace(/,/g, '')`. */
  function RemoveCommas(s: string): (r: string)
    ensures |r| <= |s|
    ensures ',' !in r
  {
    if |s| == 0 then ""
    else if s[0] == ',' then RemoveCommas(s[1..])
    else [s[0]] + RemoveCommas(s[1..])
  }

  lemma {:induction false} RemoveCommasAppend(a: string, b: string)
    ensures RemoveCommas(a + b) == RemoveCommas(a) + RemoveCommas(b)
  {
    if |a| > 0 {
      RemoveCommasAppend(a[1..], b);
      assert (a + b)[0] == a[0];
      assert (a + b)[1..] == a[1..] + b;
    } else {
      assert a + b == b;
    }
  }

  /** Removing the commas from a run of digits and commas leaves only digits. */
  lemma {:induction false} RemoveCommasOfNumRun(s: string)
    requires forall i :: 0 <= i < |s| ==> NumChar(s[i])
    ensures AllDigits(RemoveCommas(s))
  {
    if |s| > 0 {
      assert forall i :: 0 <= i < |s| - 1 ==> s[1..][i] == s[i + 1];
      RemoveCommasOfNumRun(s[1..]);
      var r := RemoveCommas(s);
      if s[0] != ',' {
        assert r == [s[0]] + RemoveCommas(s[1..]);
        assert forall i :: 1 <= i < |r| ==> r[i] == RemoveCommas(s[1..])[i - 1];
      }
    }
  }

  lemma {:induction false} RemoveCommasOfDigits(s: string)
    requires AllDigits(s)
    ensures RemoveCommas(s) == s
  {
    if |s| > 0 {
      RemoveCommasOfDigits(s[1..]);
    }
  }

  /** Digits with at most one full stop among them, as a decimal amount is written. */
  predicate AmountText(r: string) {
    (forall i :: 0 <= i < |r| ==> IsDigit(r[i]) || r[i] == '.')
    && (forall i, j :: 0 <= i < j < |r| && r[i] == '.' ==> r[j] != '.')
  }

  /** The captured amount without its thousands separators is digits with at most one point. */
  lemma CaptureIsAmountText(s: string, q: nat)
    requires q <= |s|
    ensures AmountText(RemoveCommas(s[q..CaptureEnd(s, q)]))
  {
    var a := NumRunEnd(s, q);
    var b := PointEnd(s, a);
    var e := DigitRunEnd(s, b);
    assert s[q..e] == s[q..a] + s[a..b] + s[b..e];
    RemoveCommasAppend(s[q..a] + s[a..b], s[b..e]);
    RemoveCommasAppend(s[q..a], s[a..b]);
    var head := RemoveCommas(s[q..a]);
    RemoveCommasOfNumRun(s[q..a]);
    assert AllDigits(s[b..e]);
    RemoveCommasOfDigits(s[b..e]);
    var point := RemoveCommas(s[a..b]);
    assert point == s[a..b] && |point| <= 1 && (|point| == 1 ==> point[0] == '.') by {
      if b == a + 1 {
        assert s[a..b] == [s[a]];
      } else {
        assert s[a..b] == [];
      }
    }
    AmountTextJoin(head, point, s[b..e]);
  }

  lemma AmountTextJoin(head: string, point: string, tail: string)
    requires AllDigits(head) && AllDigits(tail)
    requires |point| <= 1 && (|point| == 1 ==> point[0] == '.')
    ensures AmountText(head + point + tail)
  {
    var r := head + point + tail;
    forall i, j | 0 <= i < j < |r| && r[i] == '.'
      ensures r[j] != '.'
    {
      assert i == |head|;
    }
  }

  /** What the extractor falls back on: the plan's price without separators, else `0`. */
  function Fallback(planPrice: Option<string>): (r: string)
    ensures planPrice.Some? && RemoveCommas(planPrice.value) != "" ==> r == RemoveCommas(planPrice.value)
    ensures planPrice.None? || RemoveCommas(planPrice.value) == "" ==> r == ZeroAmount
  {
    if planPrice.Some? && RemoveCommas(planPrice.value) != "" then RemoveCommas(planPrice.value) else ZeroAmount
  }

  /** The first digit or comma at or after `p`, or `|s|`. */
  function FirstNumChar(s: string, p: nat): (q: nat)
    requires p <= |s|
    ensures p <= q <= |s|
    ensures q < |s| ==> NumChar(s[q])
    ensures forall i :: p <= i < q ==> !NumChar(s[i])
    decreases |s| - p
  {
    if p == |s| || NumChar(s[p]) then p else FirstNumChar(s, p + 1)
  }

  /** Case folding never turns a letter into a digit or a comma, nor one into something else. */
  lemma LowerKeepsNumChars(c: char)
    ensures NumChar(LowerChar(c)) <==> NumChar(c)
  {
  }

  /** No digit or comma lies between where a match starts and where its capture starts. */
  lemma MatchSkipsNoNumChar(s: string, p: nat, ws: seq<string>)
    requires p <= |s|
    requires forall k :: 0 <= k < |ws| ==> HasNoNumChar(ws[k])
    requires MatchAt(s, p, ws).Some?
    ensures forall i :: p <= i < MatchAt(s, p, ws).value ==> !NumChar(s[i])
  {
    var k := MatchAlternative(s, p, ws);
    var w := ws[k];
    forall i | p <= i < p + |w|
      ensures !NumChar(s[i])
    {
      assert Lower(s[p..p + |w|])[i - p] == Lower(w)[i - p];
      LowerKeepsNumChars(s[i]);
      LowerKeepsNumChars(w[i - p]);
    }
  }

  /** With the empty alternative last, the expression matches wherever whitespace then a digit or comma follows. */
  lemma {:induction false} EmptyAlternativeMatches(s: string, p: nat, ws: seq<string>)
    requires p <= |s|
    requires |ws| > 0 && ws[|ws| - 1] == ""
    requires SkipSpaces(s, p) < |s| && NumChar(s[SkipSpaces(s, p)])
    ensures MatchAt(s, p, ws).Some?
  {
    if |ws| > 1 && !(PrefixAt(s, p, ws[0]) && SkipSpaces(s, p + |ws[0]|) < |s| && NumChar(s[SkipSpaces(s, p + |ws[0]|)])) {
      EmptyAlternativeMatches(s, p, ws[1..]);
    } else if |ws| == 1 {
      assert PrefixAt(s, p, ws[0]);
    }
  }

  lemma AmountPrefixesHaveNoNumChar()
    ensures |AmountPrefixes| == 5 && AmountPrefixes[4] == ""
    ensures forall k :: 0 <= k < |AmountPrefixes| ==> HasNoNumChar(AmountPrefixes[k])
    ensures forall k :: 0 <= k < |CurrencyMarkers| ==> HasNoNumChar(CurrencyMarkers[k])
  {
  }

  /**
   * As written, the amount expression's capture starts at the first digit or
   * comma of the message, wherever the currency marker is: the empty
   * alternative lets the expression match in front of any number.
   */
  lemma {:induction false} CaptureIsFirstNumber(s: string, p: nat)
    requires p <= |s|
    ensures var m := SearchFrom(s, p, AmountPrefixes);
      var q := FirstNumChar(s, p);
      (m.None? <==> q == |s|)
      && (m.Some? ==> MatchAt(s, m.value, AmountPrefixes) == Some(q))
    decreases |s| - p
  {
    AmountPrefixesHaveNoNumChar();
    var here := MatchAt(s, p, AmountPrefixes);
    if here.Some? {
      MatchSkipsNoNumChar(s, p, AmountPrefixes);
      assert SearchFrom(s, p, AmountPrefixes) == Some(p);
      var q := here.value;
      assert NumChar(s[q]) && forall i :: p <= i < q ==> !NumChar(s[i]);
      assert FirstNumChar(s, p) == q;
    } else if p < |s| {
      if NumChar(s[p]) {
        EmptyAlternativeMatches(s, p, AmountPrefixes);
        assert false;
      }
      CaptureIsFirstNumber(s, p + 1);
    }
  }

  /**
   * `extractAmount`, as written: the captured number without commas when the
   * expression matches, which it does exactly when the message holds a digit
   * or comma; otherwise the plan's price without commas, or `0`.
   */
  function ExtractAmount(message: string, planPrice: Option<string>): (amount: string)
    ensures (exists i :: 0 <= i < |message| && NumChar(message[i])) ==>
      var q := FirstNumChar(message, 0);
      amount == RemoveCommas(message[q..CaptureEnd(message, q)]) && AmountText(amount)
    ensures (forall i :: 0 <= i < |message| ==> !NumChar(message[i])) ==> amount == Fallback(planPrice)
  {
    CaptureIsFirstNumber(message, 0);
    match CaptureStart(message, AmountPrefixes)
    case None => Fallback(planPrice)
    case Some(q) =>
      CaptureIsAmountText(message, q);
      RemoveCommas(message[q..CaptureEnd(message, q)])
  }

  /**
   * The amount as evidently intended: the number right after a `Ksh` or `KES`
   * marker (letter case ignored, an optional full stop, then whitespace);
   * otherwise the same fallback.
   */
  function ExtractPaidAmount(message: string, planPrice: Option<string>): (amount: string)
    ensures (forall m :: 0 <= m <= |message| ==> MatchAt(message, m, CurrencyMarkers).None?) ==>
      amount == Fallback(planPrice)
    ensures (exists m :: 0 <= m <= |message| && MatchAt(message, m, CurrencyMarkers).Some?) ==>
      AmountText(amount)
  {
    match SearchFrom(message, 0, CurrencyMarkers)
    case None => Fallback(planPrice)
    case Some(m) =>
      var q := MatchAt(message, m, CurrencyMarkers).value;
      CaptureIsAmountText(message, q);
      RemoveCommas(message[q..CaptureEnd(message, q)])
  }

  /**
   * Whenever the intended extractor reads an amount from the message, that
   * amount is the number that follows a currency marker across whitespace
   * only, at the leftmost marker that has one.
   */
  lemma PaidAmountFollowsMarker(message: string, planPrice: Option<string>) returns (m: nat, k: nat)
    requires exists m :: 0 <= m <= |message| && MatchAt(message, m, CurrencyMarkers).Some?
    ensures m <= |message| && k < |CurrencyMarkers| && PrefixAt(message, m, CurrencyMarkers[k])
    ensures forall j :: 0 <= j < m ==> MatchAt(message, j, CurrencyMarkers).None?
    ensures var q := SkipSpaces(message, m + |CurrencyMarkers[k]|);
      q < |message| && NumChar(message[q])
      && ExtractPaidAmount(message, planPrice) == RemoveCommas(message[q..CaptureEnd(message, q)])
  {
    m := SearchFrom(message, 0, CurrencyMarkers).value;
    k := MatchAlternative(message, m, CurrencyMarkers);
  }

  /** Only a `k` or `K` can start a currency marker. */
  lemma MarkerStartsWithK(s: string, p: nat)
    requires p <= |s|
    requires MatchAt(s, p, CurrencyMarkers).Some?
    ensures p < |s| && LowerChar(s[p]) == 'k'
  {
    var k := MatchAlternative(s, p, CurrencyMarkers);
    var w := CurrencyMarkers[k];
    assert Lower(s[p..p + |w|])[0] == Lower(w)[0];
  }

  /** A stretch without a `k` or `K` holds no currency marker. */
  lemma {:induction false} SearchSkipsToK(s: string, p: nat, r: nat)
    requires p <= r <= |s|
    requires forall i :: p <= i < r ==> LowerChar(s[i]) != 'k'
    ensures SearchFrom(s, p, CurrencyMarkers) == SearchFrom(s, r, CurrencyMarkers)
    decreases r - p
  {
    if p < r {
      if MatchAt(s, p, CurrencyMarkers).Some? {
        MarkerStartsWithK(s, p);
      }
      SearchSkipsToK(s, p + 1, r);
    }
  }

  /** The example confirmation the payment page shows in the message field, in its pieces. */
  const ExampleCode: string := "SH12345678"
  const ExampleConfirmed: string := " Confirmed. "
  const ExampleAmount: string := "Ksh2,099.00"
  const ExampleSent: string := " sent"
  const ExampleTail: string :=
    " to IMPACT360 for account 522533 on 9/1/26 at 2:30 PM. New M-Pesa balance is Ksh5,000.00..."

  /** Four pieces of lengths 10, 12, 11 and 5 at the front of a string sit at those offsets. */
  lemma PiecesAtOffsets(s: string, c: string, f: string, m: string, e: string, t: string)
    requires |c| == 10 && |f| == 12 && |m| == 11 && |e| == 5
    requires s == c + (f + (m + (e + t)))
    ensures |s| >= 38 && s[..10] == c && s[10..22] == f && s[22..33] == m && s[33..38] == e
  {
    assert s[10..] == f + (m + (e + t));
    assert s[22..] == m + (e + t);
    assert s[33..] == e + t;
    assert s[10..22] == s[10..][..12];
    assert s[22..33] == s[22..][..11];
    assert s[33..38] == s[33..][..5];
  }

  /** The page's example message, and anything that follows it, has the sample's shape. */
  lemma ExampleIsSample(s: string, rest: string)
    requires s == ExampleCode + ExampleConfirmed + ExampleAmount + ExampleSent + ExampleTail + rest
    ensures SampleShape(s)
  {
    var c, f, m, e, t := ExampleCode, ExampleConfirmed, ExampleAmount, ExampleSent, ExampleTail + rest;
    assert |c| == 10 && |f| == 12 && |m| == 11 && |e| == 5;
    assert s == c + (f + (m + (e + t)));
    PiecesAtOffsets(s, c, f, m, e, t);
  }

  /** A confirmation message that starts like the example the payment page shows. */
  predicate SampleShape(s: string) {
    |s| >= 38 && s[..10] == ExampleCode && s[10..22] == ExampleConfirmed
    && s[22..33] == ExampleAmount && s[33..38] == ExampleSent
  }

  /** On the example message the written expression takes the code's digits for the amount. */
  lemma SampleAmountAsWritten(s: string, planPrice: Option<string>)
    requires SampleShape(s)
    ensures ExtractAmount(s, planPrice) == "12345678"
  {
    assert s[2] == '1' && !NumChar(s[0]) && !NumChar(s[1]);
    assert NumChar(s[2]);
    assert FirstNumChar(s, 0) == 2;
    assert NumRunEnd(s, 2) == 10 by {
      assert forall k :: 2 <= k < 10 ==> NumChar(s[k]);
      assert !NumChar(s[10]);
    }
    assert s[10] != '.' && !IsDigit(s[10]);
    assert CaptureEnd(s, 2) == 10;
    assert s[2..10] == "12345678";
    RemoveCommasOfDigits(s[2..10]);
  }

  /** On the example message the intended extractor reads the amount after `Ksh`. */
  lemma SampleAmountIntended(s: string, planPrice: Option<string>)
    requires SampleShape(s)
    ensures ExtractPaidAmount(s, planPrice) == "2099.00"
  {
    SampleFirstMarker(s);
    SampleCaptureEnd(s);
    assert ExtractPaidAmount(s, planPrice) == RemoveCommas(s[25..33]);
    SamplePaidDigits(s);
  }

  /** The number after the example's marker, without its thousands separator. */
  lemma SamplePaidDigits(s: string)
    requires SampleShape(s)
    ensures RemoveCommas(s[25..33]) == "2099.00"
  {
    var whole, point := s[25..30], s[30..33];
    assert s[25..33] == whole + point;
    RemoveCommasAppend(whole, point);
    SampleRemoveCommas(s);
    assert s[27..30] + s[30..33] == s[27..33];
    SampleDigits(s);
  }

  lemma SampleDigits(s: string)
    requires SampleShape(s)
    ensures [s[25]] + s[27..33] == "2099.00"
  {
    var r := [s[25]] + s[27..33];
    assert forall i :: 22 <= i < 33 ==> s[i] == "Ksh2,099.00"[i - 22];
    assert forall i :: 1 <= i < 7 ==> r[i] == s[26 + i];
  }

  /** The thousands separator is the only character dropped from the example amount. */
  lemma SampleRemoveCommas(s: string)
    requires SampleShape(s)
    ensures RemoveCommas(s[25..30]) == [s[25]] + s[27..30]
    ensures RemoveCommas(s[30..33]) == s[30..33]
  {
    assert forall i :: 22 <= i < 33 ==> s[i] == "Ksh2,099.00"[i - 22];
    var w := s[25..30];
    assert w[0] == '2' && w[1] == ',';
    assert AllDigits(w[2..]);
    RemoveCommasOfDigits(w[2..]);
    assert w[1..][1..] == w[2..];
    assert RemoveCommas(w[1..]) == RemoveCommas(w[2..]);
    var p := s[30..33];
    assert p[0] == '.' && AllDigits(p[1..]);
    RemoveCommasOfDigits(p[1..]);
  }

  /** In the example message the leftmost marker is the `Ksh` at position 22. */
  lemma SampleFirstMarker(s: string)
    requires SampleShape(s)
    ensures SearchFrom(s, 0, CurrencyMarkers) == Some(22)
    ensures MatchAt(s, 22, CurrencyMarkers) == Some(25)
  {
    SampleHasNoEarlierK(s);
    SearchSkipsToK(s, 0, 22);
    SampleMarkerAt22(s);
  }

  lemma SampleMarkerAt22(s: string)
    requires SampleShape(s)
    ensures MatchAt(s, 22, CurrencyMarkers) == Some(25)
  {
    var ws := CurrencyMarkers;
    assert ws[0] == "Ksh." && ws[1..][0] == "Ksh";
    assert forall i :: 22 <= i < 33 ==> s[i] == "Ksh2,099.00"[i - 22];
    assert !PrefixAt(s, 22, ws[0]) by {
      assert Lower(s[22..26])[3] == '2';
    }
    assert PrefixAt(s, 22, ws[1..][0]) by {
      assert s[22..25] == "Ksh";
    }
    assert SkipSpaces(s, 25) == 25;
    assert MatchAt(s, 22, ws[1..]) == Some(25);
  }

  lemma SampleHasNoEarlierK(s: string)
    requires SampleShape(s)
    ensures forall i :: 0 <= i < 22 ==> LowerChar(s[i]) != 'k'
  {
    assert forall i :: 0 <= i < 10 ==> s[i] == "SH12345678"[i];
    assert forall i :: 10 <= i < 22 ==> s[i] == " Confirmed. "[i - 10];
  }

  /** In the example message the amount after the marker runs from 25 to 33. */
  lemma SampleCaptureEnd(s: string)
    requires SampleShape(s)
    ensures CaptureEnd(s, 25) == 33
  {
    assert forall i :: 22 <= i < 33 ==> s[i] == "Ksh2,099.00"[i - 22];
    assert s[33] == ' ';
    assert NumRunEnd(s, 25) == 30 by {
      assert forall k :: 25 <= k < 30 ==> NumChar(s[k]);
      assert !NumChar(s[30]);
    }
    assert PointEnd(s, 30) == 31;
    assert DigitRunEnd(s, 31) == 33 by {
      assert IsDigit(s[31]) && IsDigit(s[32]) && !IsDigit(s[33]);
    }
  }

  /** On the example message the code found is the transaction code. */
  lemma SampleCode(s: string)
    requires SampleShape(s)
    ensures ExtractMpesaCode(s) == "SH12345678"
  {
    assert s[10] == ' ';
    assert MixedCodeAt(s, 0);
  }
}

=== FILE: orders.dfy ===
/**
 * The pure part of the create-payment route of backend/server.js: Kenyan
 * phone-number formatting, the split of a full name into first and last
 * name, the merchant reference and the order payload sent to the gateway.
 */
module Orders {
  import opened Wrappers
  import opened Text

  /** The country calling code every formatted phone number starts with. */
  const CountryCode: string := "254"

  /** The local trunk prefix that the country code replaces. */
  const TrunkPrefix: string := "0"

  const Currency: string := "KES"
  const CountryIso: string := "KE"
  const ReferencePrefix: string := "IMPACT360"
  /** The page the gateway sends the payer back to, and the frontend used when none is configured. */
  const CallbackPath: string := "/payment-callback"
  const LocalFrontend: string := "http://localhost:5173"

  /** JavaScript truthiness of an optional string: present and not empty. */
  predicate Truthy(s: Option<string>) {
    s.Some? && s.value != ""
  }

  /**
   * Formats a phone number: whitespace removed, a leading `0` replaced by
   * `254`, and `254` put in front unless already there. The result is the
   * cleaned input with only its prefix rewritten.
   */
  function FormatPhone(phone: string): (r: string)
    ensures StartsWith(r, CountryCode)
    ensures NoWhitespace(r)
    ensures var p := RemoveWhitespace(phone);
      |r| >= 3 && (p == r || p == r[3..] || p == TrunkPrefix + r[3..])
    ensures var p := RemoveWhitespace(phone);
      StartsWith(p, TrunkPrefix) ==> r == CountryCode + p[1..]
    ensures var p := RemoveWhitespace(phone);
      !StartsWith(p, TrunkPrefix) && StartsWith(p, CountryCode) ==> r == p
    ensures var p := RemoveWhitespace(phone);
      !StartsWith(p, TrunkPrefix) && !StartsWith(p, CountryCode) ==> r == CountryCode + p
  {
    var p := RemoveWhitespace(phone);
    if StartsWith(p, TrunkPrefix) then CountryCode + p[1..]
    else if !StartsWith(p, CountryCode) then CountryCode + p
    else p
  }

  /** A number that begins with the trunk prefix has exactly that one `0` replaced. */
  lemma FormatPhoneLocal(phone: string)
    requires StartsWith(RemoveWhitespace(phone), TrunkPrefix)
    ensures FormatPhone(phone) == CountryCode + RemoveWhitespace(phone)[1..]
  {
  }

  /** Formatting an already formatted number changes nothing. */
  lemma FormatPhoneIdempotent(phone: string)
    ensures FormatPhone(FormatPhone(phone)) == FormatPhone(phone)
  {
    var r := FormatPhone(phone);
    RemoveWhitespaceOfClean(r);
    assert RemoveWhitespace(r) == r;
    assert r[..1] == "2";
  }

  /** The number written with the trunk prefix, as in the phone field's placeholder. */
  lemma FormatPhoneExample(phone: string)
    requires phone == "0712345678"
    ensures FormatPhone(phone) == "254712345678"
  {
    LocalDigits(phone);
    RemoveWhitespaceOfClean(phone);
    FormatPhoneLocal(phone);
    PrependCountryCode(phone[1..]);
  }

  lemma LocalDigits(phone: string)
    requires phone == "0712345678"
    ensures NoWhitespace(phone) && StartsWith(phone, TrunkPrefix) && phone[1..] == "712345678"
  {
  }

  lemma PrependCountryCode(rest: string)
    requires rest == "712345678"
    ensures CountryCode + rest == "254712345678"
  {
  }

  /** `first_name` and `last_name` of the billing address. */
  datatype Name = Name(first: string, last: string)

  /**
   * `first_name` is the text before the first space, or the whole name when
   * that text is empty; `last_name` is the remaining pieces joined again with
   * single spaces.
   */
  function SplitName(fullName: string): (n: Name)
    ensures ' ' !in fullName ==> n == Name(fullName, "")
    ensures ' ' in fullName ==>
      var i := IndexOf(fullName, ' ');
      n.last == fullName[i + 1..]
      && n.first == (if i == 0 then fullName else fullName[..i])
    ensures |fullName| > 0 && fullName[0] != ' ' ==> ' ' !in n.first
  {
    var parts := Split(fullName, ' ');
    var first := if parts[0] != "" then parts[0] else fullName;
    var last := Join(parts[1..], ' ');
    SplitNameFacts(fullName);
    Name(first, last)
  }

  lemma SplitNameFacts(fullName: string)
    ensures var parts := Split(fullName, ' ');
      var i := IndexOf(fullName, ' ');
      (' ' !in fullName ==> parts == [fullName])
      && (' ' in fullName ==>
            (i < |fullName| && parts[0] == fullName[..i]
             && Join(parts[1..], ' ') == fullName[i + 1..]))
  {
    if ' ' in fullName {
      SplitAtFirst(fullName, ' ');
      var i := IndexOf(fullName, ' ');
      var rest := fullName[i + 1..];
      var parts := Split(fullName, ' ');
      assert parts[1..] == Split(rest, ' ');
      JoinSplit(rest, ' ');
    } else {
      SplitOfSeparatorFree(fullName, ' ');
    }
  }

  /** For a name that does not start with a space, first and last name put back together give the full name. */
  lemma SplitNameRejoins(fullName: string)
    requires ' ' in fullName && fullName[0] != ' '
    ensures SplitName(fullName).first + " " + SplitName(fullName).last == fullName
  {
    var i := IndexOf(fullName, ' ');
    assert fullName == fullName[..i] + [' '] + fullName[i + 1..];
  }

  lemma SplitNameExample(fullName: string)
    requires fullName == "Jane Doe"
    ensures SplitName(fullName) == Name("Jane", "Doe")
  {
    SplitNameOfTwoParts("Jane", "Doe", fullName);
  }

  lemma SplitNameThreeWordsExample(fullName: string)
    requires fullName == "Mary Jane Doe"
    ensures SplitName(fullName) == Name("Mary", "Jane Doe")
  {
    SplitNameOfTwoParts("Mary", "Jane Doe", fullName);
  }

  /** A name whose first space follows a non-empty word splits at that space. */
  lemma SplitNameOfTwoParts(first: string, last: string, fullName: string)
    requires first != [] && ' ' !in first
    requires fullName == first + [' '] + last
    ensures SplitName(fullName) == Name(first, last)
  {
    IndexOfAfter(first, last, ' ');
    var i := |first|;
    assert fullName[i] == ' ';
    assert fullName[..i] == first;
    assert fullName[i + 1..] == last;
  }

  /**
   * The merchant reference: `IMPACT360_`, the clock in milliseconds, `_`,
   * then a random suffix. Both the clock and the suffix are inputs.
   */
  function MerchantReference(nowMs: nat, randomSuffix: string): string {
    ReferencePrefix + "_" + Decimal(nowMs) + "_" + randomSuffix
  }

  /** Reads the clock value and the random suffix back out of a merchant reference. */
  function ParseMerchantReference(reference: string): Option<(nat, string)> {
    var parts := Split(reference, '_');
    if |parts| >= 3 && parts[0] == ReferencePrefix && AllDigits(parts[1]) then
      Some((DecimalValue(parts[1]), Join(parts[2..], '_')))
    else None
  }

  /** A merchant reference determines the clock value and the suffix it was built from. */
  lemma MerchantReferenceRoundTrip(nowMs: nat, randomSuffix: string)
    ensures ParseMerchantReference(MerchantReference(nowMs, randomSuffix)) == Some((nowMs, randomSuffix))
  {
    var d := Decimal(nowMs);
    MerchantReferencePieces(nowMs, randomSuffix);
    var parts := Split(MerchantReference(nowMs, randomSuffix), '_');
    assert parts[0] == ReferencePrefix && parts[1] == d;
    assert parts[2..] == Split(randomSuffix, '_');
    JoinSplit(randomSuffix, '_');
    DecimalRoundTrip(nowMs);
  }

  /** The pieces of a merchant reference between its underscores. */
  lemma MerchantReferencePieces(nowMs: nat, randomSuffix: string)
    ensures Split(MerchantReference(nowMs, randomSuffix), '_')
            == [ReferencePrefix, Decimal(nowMs)] + Split(randomSuffix, '_')
  {
    var d := Decimal(nowMs);
    assert '_' !in d by {
      assert forall k :: 0 <= k < |d| ==> d[k] != '_';
    }
    PrefixHasNoUnderscore(ReferencePrefix);
    ReferenceShape(MerchantReference(nowMs, randomSuffix), ReferencePrefix, d, randomSuffix);
    SplitAfterFirst(ReferencePrefix, d + ['_'] + randomSuffix, '_');
    SplitAfterFirst(d, randomSuffix, '_');
  }

  lemma PrefixHasNoUnderscore(prefix: string)
    requires prefix == ReferencePrefix
    ensures '_' !in prefix
  {
    assert forall k :: 0 <= k < |prefix| ==> prefix[k] != '_';
  }

  lemma ReferenceShape(r: string, prefix: string, d: string, suffix: string)
    requires r == prefix + "_" + d + "_" + suffix
    ensures r == prefix + ['_'] + (d + ['_'] + suffix)
  {
  }

  /** Two payment attempts get the same reference only if their clock values and suffixes agree. */
  lemma MerchantReferenceInjective(t1: nat, s1: string, t2: nat, s2: string)
    requires MerchantReference(t1, s1) == MerchantReference(t2, s2)
    ensures t1 == t2 && s1 == s2
  {
    MerchantReferenceRoundTrip(t1, s1);
    MerchantReferenceRoundTrip(t2, s2);
  }

  datatype BillingAddress = BillingAddress(
    emailAddress: string,
    phoneNumber: string,
    countryCode: string,
    firstName: string,
    middleName: string,
    lastName: string,
    line1: string,
    line2: string,
    city: string,
    state: string,
    postalCode: string,
    zipCode: string)

  /** The order payload; `amount` is passed through as text (its number parsing is not modelled). */
  datatype Order = Order(
    id: string,
    currency: string,
    amount: string,
    description: string,
    callbackUrl: string,
    notificationId: Option<string>,
    billing: BillingAddress)

  /** A template literal renders a missing value as `undefined`. */
  function Render(s: Option<string>): string {
    s.GetOr("undefined")
  }

  /** Where the gateway sends the payer back after paying. */
  function CallbackUrl(frontendUrl: Option<string>): (url: string)
    ensures Truthy(frontendUrl) ==> url == frontendUrl.value + CallbackPath
    ensures !Truthy(frontendUrl) ==> url == LocalFrontend + CallbackPath
  {
    (if Truthy(frontendUrl) then frontendUrl.value else LocalFrontend) + CallbackPath
  }

  /** The order's description: plan and period, the period rendered `undefined` when absent. */
  function Description(plan: string, period: Option<string>): (d: string)
    ensures period.Some? ==> d == "Impact360 " + plan + " Subscription - " + period.value
    ensures period.None? ==> d == "Impact360 " + plan + " Subscription - undefined"
  {
    "Impact360 " + plan + " Subscription - " + Render(period)
  }

  /**
   * The order built for a validated request: Kenyan currency and country, the
   * formatted phone number, the split name and the resolved notification id.
   */
  function BuildOrder(reference: string, plan: string, amount: string, period: Option<string>,
                      fullName: string, phone: string, email: string,
                      notificationId: Option<string>, frontendUrl: Option<string>): (o: Order)
    ensures o.id == reference && o.amount == amount
    ensures o.currency == Currency && o.billing.countryCode == CountryIso
    ensures o.notificationId == notificationId
    ensures o.billing.emailAddress == email
    ensures o.billing.phoneNumber == FormatPhone(phone)
    ensures StartsWith(o.billing.phoneNumber, CountryCode) && NoWhitespace(o.billing.phoneNumber)
    ensures o.callbackUrl == CallbackUrl(frontendUrl)
    ensures o.description == Description(plan, period)
    ensures Name(o.billing.firstName, o.billing.lastName) == SplitName(fullName)
    ensures o.billing.middleName == ""
  {
    var name := SplitName(fullName);
    Order(
      reference,
      Currency,
      amount,
      Description(plan, period),
      CallbackUrl(frontendUrl),
      notificationId,
      BillingAddress(email, FormatPhone(phone), CountryIso, name.first, "", name.last,
                     "", "", "", "", "", ""))
  }
}

=== FILE: text.dfy ===
/**
 * Strings as JavaScript's regular expressions and string methods see them:
 * character classes (`\s`, `\d`, `\w`), ASCII case mapping, whitespace
 * removal, substring search, `split`/`join` on one separator character and
 * the decimal rendering of a non-negative integer (`Number.prototype.toString`).
 */
module Text {

  /** JavaScript's `\s`: WhiteSpace and LineTerminator code points. */
  predicate IsWhitespace(c: char) {
    var n := c as int;
    n == 0x20 || 0x09 <= n <= 0x0D || n == 0xA0 || n == 0x1680
    || 0x2000 <= n <= 0x200A || n == 0x2028 || n == 0x2029
    || n == 0x202F || n == 0x205F || n == 0x3000 || n == 0xFEFF
  }

  /** JavaScript's `\d` without the `u` flag. */
  predicate IsDigit(c: char) {
    '0' <= c <= '9'
  }

  predicate IsUpper(c: char) {
    'A' <= c <= 'Z'
  }

  predicate IsLower(c: char) {
    'a' <= c <= 'z'
  }

  /** JavaScript's `\w`, which decides where `\b` holds. */
  predicate IsWordChar(c: char) {
    IsDigit(c) || IsUpper(c) || IsLower(c) || c == '_'
  }

  function LowerChar(c: char): char {
    if IsUpper(c) then (c as int + 32) as char else c
  }

  function UpperChar(c: char): char {
    if IsLower(c) then (c as int - 32) as char else c
  }

  /** `toLowerCase`, on the ASCII letters. */
  function Lower(s: string): (r: string)
    ensures |r| == |s|
    ensures forall i :: 0 <= i < |s| ==> r[i] == LowerChar(s[i])
  {
    seq(|s|, i requires 0 <= i < |s| => LowerChar(s[i]))
  }

  /** `toUpperCase`, on the ASCII letters. */
  function Upper(s: string): (r: string)
    ensures |r| == |s|
    ensures forall i :: 0 <= i < |s| ==> r[i] == UpperChar(s[i])
  {
    seq(|s|, i requires 0 <= i < |s| => UpperChar(s[i]))
  }

  predicate NoWhitespace(s: string) {
    forall i :: 0 <= i < |s| ==> !IsWhitespace(s[i])
  }

  /** Every character is whitespace: exactly when `s.trim()` is empty. */
  predicate IsBlank(s: string) {
    forall i :: 0 <= i < |s| ==> IsWhitespace(s[i])
  }

  predicate StartsWith(s: string, prefix: string) {
    |prefix| <= |s| && s[..|prefix|] == prefix
  }

  /** `s.includes(t)`: the empty string is found in every string. */
  predicate Contains(s: string, t: string) {
    exists i | 0 <= i <= |s| - |t| :: OccursAt(s, t, i)
  }

  /** `t` occurs in `s` starting at position `i`. */
  predicate OccursAt(s: string, t: string, i: nat) {
    i + |t| <= |s| && s[i..i + |t|] == t
  }

  /** `s.replace(/\s+/g, '')`: every whitespace character dropped, the rest kept in order. */
  function RemoveWhitespace(s: string): (r: string)
    ensures NoWhitespace(r)
    ensures |r| <= |s|
  {
    if |s| == 0 then ""
    else if IsWhitespace(s[0]) then RemoveWhitespace(s[1..])
    else [s[0]] + RemoveWhitespace(s[1..])
  }

  /** A string already free of whitespace is left as it is. */
  lemma {:induction false} RemoveWhitespaceOfClean(s: string)
    requires NoWhitespace(s)
    ensures RemoveWhitespace(s) == s
  {
    if |s| > 0 {
      RemoveWhitespaceOfClean(s[1..]);
    }
  }

  /** Whitespace is removed piece by piece. */
  lemma {:induction false} RemoveWhitespaceAppend(a: string, b: string)
    ensures RemoveWhitespace(a + b) == RemoveWhitespace(a) + RemoveWhitespace(b)
  {
    if |a| > 0 {
      RemoveWhitespaceAppend(a[1..], b);
      assert (a + b)[0] == a[0];
      assert (a + b)[1..] == a[1..] + b;
    } else {
      assert a + b == b;
    }
  }

  /** Position of the first `sep` in `s`, or `|s|` when there is none. */
  function IndexOf(s: string, sep: char): (i: nat)
    ensures i <= |s|
    ensures i < |s| ==> s[i] == sep
    ensures i < |s| <==> sep in s
    ensures sep !in s[..i]
  {
    if |s| == 0 then 0
    else if s[0] == sep then 0
    else
      var j := IndexOf(s[1..], sep);
      assert s[..1 + j] == [s[0]] + s[1..][..j];
      1 + j
  }

  /** `s.split(sep)` for a one-character separator: never empty, no piece holds `sep`. */
  function Split(s: string, sep: char): (parts: seq<string>)
    ensures |parts| >= 1
    ensures forall k :: 0 <= k < |parts| ==> sep !in parts[k]
    decreases |s|
  {
    var i := IndexOf(s, sep);
    if i == |s| then
      assert s[..i] == s;
      [s]
    else [s[..i]] + Split(s[i + 1..], sep)
  }

  /** `parts.join(sep)`: `[].join(sep)` is the empty string. */
  function Join(parts: seq<string>, sep: char): string {
    if |parts| == 0 then ""
    else if |parts| == 1 then parts[0]
    else parts[0] + [sep] + Join(parts[1..], sep)
  }

  /** Joining the pieces of a split gives back the original string. */
  lemma {:induction false} JoinSplit(s: string, sep: char)
    ensures Join(Split(s, sep), sep) == s
    decreases |s|
  {
    var i := IndexOf(s, sep);
    if i < |s| {
      var rest := s[i + 1..];
      JoinSplit(rest, sep);
      var tail := Split(rest, sep);
      assert Split(s, sep) == [s[..i]] + tail;
      JoinCons(s[..i], tail, sep);
      Reassemble(s, i);
    } else {
      assert Split(s, sep) == [s];
    }
  }

  /** A string holding the separator splits at its first occurrence. */
  lemma SplitAtFirst(s: string, sep: char)
    requires sep in s
    ensures var i := IndexOf(s, sep);
      i < |s| && Split(s, sep) == [s[..i]] + Split(s[i + 1..], sep)
  {
  }

  lemma Reassemble(s: string, i: nat)
    requires i < |s|
    ensures s[..i] + [s[i]] + s[i + 1..] == s
  {
  }

  lemma JoinCons(head: string, tail: seq<string>, sep: char)
    requires |tail| >= 1
    ensures Join([head] + tail, sep) == head + [sep] + Join(tail, sep)
  {
    assert ([head] + tail)[1..] == tail;
  }

  /** Splitting a joined list of separator-free pieces gives back the pieces. */
  lemma {:induction false} SplitJoin(parts: seq<string>, sep: char)
    requires |parts| >= 1
    requires forall k :: 0 <= k < |parts| ==> sep !in parts[k]
    ensures Split(Join(parts, sep), sep) == parts
  {
    if |parts| == 1 {
      SplitOfSeparatorFree(parts[0], sep);
    } else {
      SplitJoin(parts[1..], sep);
      SplitAfterFirst(parts[0], Join(parts[1..], sep), sep);
    }
  }

  lemma SplitOfSeparatorFree(s: string, sep: char)
    requires sep !in s
    ensures Split(s, sep) == [s]
  {
  }

  /** The first separator of `a + [sep] + b` is the one after `a` when `a` holds none. */
  lemma IndexOfAfter(a: string, b: string, sep: char)
    requires sep !in a
    ensures IndexOf(a + [sep] + b, sep) == |a|
  {
    var s := a + [sep] + b;
    assert s[|a|] == sep;
    assert forall k :: 0 <= k < |a| ==> s[k] == a[k];
  }

  /** The first piece of `a + [sep] + b` is `a` when `a` holds no separator. */
  lemma SplitAfterFirst(a: string, b: string, sep: char)
    requires sep !in a
    ensures Split(a + [sep] + b, sep) == [a] + Split(b, sep)
  {
    var s := a + [sep] + b;
    var i := IndexOf(s, sep);
    IndexOfAfter(a, b, sep);
    assert s[..i] == a;
    assert s[i + 1..] == b;
  }

  /** The character for a decimal digit. */
  function DigitChar(d: nat): (c: char)
    requires d < 10
    ensures IsDigit(c)
  {
    ('0' as int + d) as char
  }

  predicate AllDigits(s: string) {
    forall i :: 0 <= i < |s| ==> IsDigit(s[i])
  }

  /** `n.toString()` for a non-negative integer: decimal digits, most significant first. */
  function Decimal(n: nat): (r: string)
    ensures |r| >= 1 && AllDigits(r)
  {
    if n < 10 then [DigitChar(n)]
    else Decimal(n / 10) + [DigitChar(n % 10)]
  }

  /** The value of a string of decimal digits. */
  function DecimalValue(s: string): nat
    requires AllDigits(s)
  {
    if |s| == 0 then 0
    else DecimalValue(s[..|s| - 1]) * 10 + (s[|s| - 1] as int - '0' as int)
  }

  /** Reading back a rendered number gives the number. */
  lemma {:induction false} DecimalRoundTrip(n: nat)
    ensures DecimalValue(Decimal(n)) == n
  {
    if n >= 10 {
      DecimalRoundTrip(n / 10);
      var s := Decimal(n);
      assert s[..|s| - 1] == Decimal(n / 10);
    }
  }

  /** Two numbers render the same only if they are equal. */
  lemma DecimalInjective(m: nat, n: nat)
    requires Decimal(m) == Decimal(n)
    ensures m == n
  {
    DecimalRoundTrip(m);
    DecimalRoundTrip(n);
  }
}

=== FILE: ticketflow.dfy ===
/**
 * The two-step subscription flow of the subscription page: a plan is picked,
 * the payment details are shown, then a ticket form takes the payer's details
 * and the pasted M-Pesa SMS and files a pending ticket request.
 *
 * The page's state is a `Page` record; each handler is a function on it. The
 * submit handler awaits the store, so it is split at that point into
 * `BeginSubmit` (which yields the record written) and `FinishSubmit` (which
 * receives the store's outcome). `Dispatch` adds what the rendered page
 * allows: an open modal's overlay covers the page, the form's controls are
 * disabled while a submission is in flight, every form field is required,
 * and the e-mail field must hold a valid address.
 */
module TicketFlow {
  import opened Wrappers
  import opened Text
  import opened MpesaSms

  /** A subscription plan: its name, its price as displayed and its period label. */
  datatype Plan = Plan(name: string, price: string, period: string)

  /** The ticket form's four fields. */
  datatype Form = Form(fullName: string, email: string, phone: string, mpesaMessage: string)

  datatype Field = FullName | Email | Phone | MpesaMessage

  const EmptyForm: Form := Form("", "", "", "")

  /** The billing periods offered, by key. */
  const PeriodKeys: seq<string> := ["monthly", "quarterly", "biannual", "annual"]

  const InitialPeriod: string := "monthly"

  /** The plan name recorded when no plan is at hand. */
  const GeneralPlan: string := "General"

  const Pending: string := "pending"

  /** The label a period's prices are shown with. */
  function PeriodLabel(period: string): string {
    if period == "monthly" then "mo"
    else if period == "quarterly" then "3mo"
    else if period == "biannual" then "6mo"
    else "yr"
  }

  /**
   * The plans of a billing period: every period offers Student, Pro and
   * Premium, in that order, each priced and labelled with the period.
   */
  function PlansFor(period: string): (plans: seq<Plan>)
    ensures period !in PeriodKeys ==> plans == []
    ensures period in PeriodKeys ==>
      |plans| == 3 && plans[0].name == "Student" && plans[1].name == "Pro" && plans[2].name == "Premium"
    ensures forall i :: 0 <= i < |plans| ==> plans[i].name != "" && plans[i].price != ""
    ensures forall i :: 0 <= i < |plans| ==> plans[i].period == PeriodLabel(period)
  {
    if period == "monthly" then
      [Plan("Student", "999", "mo"), Plan("Pro", "2,099", "mo"), Plan("Premium", "4,099", "mo")]
    else if period == "quarterly" then
      [Plan("Student", "2,847", "3mo"), Plan("Pro", "5,982", "3mo"), Plan("Premium", "11,682", "3mo")]
    else if period == "biannual" then
      [Plan("Student", "5,395", "6mo"), Plan("Pro", "11,335", "6mo"), Plan("Premium", "22,135", "6mo")]
    else if period == "annual" then
      [Plan("Student", "10,189", "yr"), Plan("Pro", "21,410", "yr"), Plan("Premium", "41,810", "yr")]
    else []
  }

  /** The page's state. */
  datatype Page = Page(
    selectedPeriod: string,
    showPaymentInfo: bool,
    showTicketForm: bool,
    planToSubscribe: Option<Plan>,
    processing: bool,
    form: Form)

  /** The page as first rendered. */
  function InitialPage(): (p: Page)
    ensures Inv(p) && !ModalOpen(p) && !p.processing
  {
    Page(InitialPeriod, false, false, None, false, EmptyForm)
  }

  /** The payment-details modal is rendered. */
  predicate PaymentModalOpen(p: Page) {
    p.showPaymentInfo && p.planToSubscribe.Some?
  }

  /** The ticket-form modal is rendered. */
  predicate TicketFormOpen(p: Page) {
    p.showTicketForm && p.planToSubscribe.Some?
  }

  predicate ModalOpen(p: Page) {
    PaymentModalOpen(p) || TicketFormOpen(p)
  }

  /** What the page keeps true between events. */
  predicate Inv(p: Page) {
    p.selectedPeriod in PeriodKeys
    && !(p.showPaymentInfo && p.showTicketForm)
    && (p.planToSubscribe.Some? <==> p.showPaymentInfo || p.showTicketForm)
    && (p.planToSubscribe.Some? ==> p.planToSubscribe.value in PlansFor(p.selectedPeriod))
    && (p.processing ==> p.showTicketForm)
    && (!p.showTicketForm ==> p.form == EmptyForm)
  }

  /** `handleSubscribeClick`: remember the plan and show its payment details. */
  function SubscribeClick(p: Page, plan: Plan): (p': Page)
    ensures PaymentModalOpen(p') && p'.planToSubscribe == Some(plan)
    ensures p'.showTicketForm == p.showTicketForm && p'.form == p.form && p'.selectedPeriod == p.selectedPeriod
  {
    p.(planToSubscribe := Some(plan), showPaymentInfo := true)
  }

  /** `handleProceedToTicketForm`: swap the payment details for the ticket form. */
  function ProceedToTicketForm(p: Page): (p': Page)
    ensures !p'.showPaymentInfo && p'.showTicketForm
    ensures p'.planToSubscribe == p.planToSubscribe && p'.form == p.form && p'.processing == p.processing
  {
    p.(showPaymentInfo := false, showTicketForm := true)
  }

  function SetField(f: Form, field: Field, value: string): (f': Form)
    ensures ReadField(f', field) == value
    ensures forall other :: other != field ==> ReadField(f', other) == ReadField(f, other)
  {
    match field
    case FullName => f.(fullName := value)
    case Email => f.(email := value)
    case Phone => f.(phone := value)
    case MpesaMessage => f.(mpesaMessage := value)
  }

  function ReadField(f: Form, field: Field): string {
    match field
    case FullName => f.fullName
    case Email => f.email
    case Phone => f.phone
    case MpesaMessage => f.mpesaMessage
  }

  /** `handleTicketFormChange`: one field takes the typed value, the others keep theirs. */
  function ChangeField(p: Page, field: Field, value: string): (p': Page)
    ensures ReadField(p'.form, field) == value
    ensures forall other :: other != field ==> ReadField(p'.form, other) == ReadField(p.form, other)
    ensures p'.(form := p.form) == p
  {
    p.(form := SetField(p.form, field, value))
  }

  /** Every field of the form is filled in, as the inputs' `required` demands. */
  predicate FormComplete(f: Form) {
    f.fullName != "" && f.email != "" && f.phone != "" && f.mpesaMessage != ""
  }

  /**
   * A character of the part before `@` in a valid e-mail address: the
   * `atext` of RFC 5322 and `.` (HTML Living Standard, section 4.10.5.1.5).
   */
  predicate LocalPartChar(c: char) {
    IsUpper(c) || IsLower(c) || IsDigit(c) || c in ".!#$%&'*+/=?^_`{|}~-"
  }

  /** A character of a domain label: a letter, a digit or a hyphen. */
  predicate LabelChar(c: char) {
    IsUpper(c) || IsLower(c) || IsDigit(c) || c == '-'
  }

  /** A domain label: 1 to 63 label characters, neither first nor last a hyphen. */
  predicate ValidLabel(l: string) {
    1 <= |l| <= 63 && l[0] != '-' && l[|l| - 1] != '-'
    && forall i :: 0 <= i < |l| ==> LabelChar(l[i])
  }

  predicate ValidLocalPart(l: string) {
    |l| >= 1 && forall i :: 0 <= i < |l| ==> LocalPartChar(l[i])
  }

  /** One or more valid labels separated by dots. */
  predicate ValidDomain(d: string) {
    var labels := Split(d, '.');
    forall k :: 0 <= k < |labels| ==> ValidLabel(labels[k])
  }

  /**
   * What an `type="email"` input accepts: a local part, `@`, a domain. The
   * local part holds no `@`, so the address is cut at its first `@`.
   */
  predicate ValidEmail(s: string) {
    var i := IndexOf(s, '@');
    i < |s| && ValidLocalPart(s[..i]) && ValidDomain(s[i + 1..])
  }

  /**
   * What the browser lets through to the submit handler: every `required`
   * field filled and the e-mail field holding a valid address.
   */
  predicate FormValid(f: Form) {
    FormComplete(f) && ValidEmail(f.email)
  }

  /** An address made of a valid local part, `@` and a domain is valid exactly when the domain is. */
  lemma EmailParts(local: string, domain: string)
    requires ValidLocalPart(local)
    ensures ValidEmail(local + ['@'] + domain) <==> ValidDomain(domain)
  {
    assert '@' !in local by {
      forall i | 0 <= i < |local| ensures local[i] != '@' {
        assert LocalPartChar(local[i]);
      }
    }
    var s := local + ['@'] + domain;
    IndexOfAfter(local, domain, '@');
    assert s[..|local|] == local;
    assert s[|local| + 1..] == domain;
  }

  /** Every valid address is a valid local part, `@` and a valid domain. */
  lemma ValidEmailSplits(s: string)
    requires ValidEmail(s)
    ensures var i := IndexOf(s, '@');
      s == s[..i] + ['@'] + s[i + 1..] && ValidLocalPart(s[..i]) && ValidDomain(s[i + 1..])
  {
    Reassemble(s, IndexOf(s, '@'));
  }

  /** Addresses without a dot in the domain, like `a@b`, are valid. */
  lemma DotlessDomain(part: string)
    requires ValidLabel(part)
    ensures ValidDomain(part)
  {
    assert '.' !in part by {
      forall i | 0 <= i < |part| ensures part[i] != '.' {
        assert LabelChar(part[i]);
      }
    }
    SplitOfSeparatorFree(part, '.');
  }

  /** A dot joins a part to a valid domain. */
  lemma DomainCons(part: string, rest: string)
    requires ValidLabel(part) && ValidDomain(rest)
    ensures ValidDomain(part + ['.'] + rest)
  {
    assert '.' !in part by {
      forall i | 0 <= i < |part| ensures part[i] != '.' {
        assert LabelChar(part[i]);
      }
    }
    SplitAfterFirst(part, rest, '.');
  }

  /** The e-mail field's placeholder address, `your.email@example.com`, in its pieces. */
  const PlaceholderLocal: string := "your.email"
  const PlaceholderHost: string := "example"
  const PlaceholderTld: string := "com"

  lemma PlaceholderLocalValid(s: string)
    requires s == PlaceholderLocal
    ensures ValidLocalPart(s)
  {
  }

  lemma PlaceholderLabelsValid(h: string, t: string)
    requires h == PlaceholderHost && t == PlaceholderTld
    ensures ValidLabel(h) && ValidLabel(t)
  {
  }

  /** The e-mail field's placeholder address is a valid one. */
  lemma PlaceholderEmailValid()
    ensures ValidEmail(PlaceholderLocal + ['@'] + (PlaceholderHost + ['.'] + PlaceholderTld))
  {
    PlaceholderLocalValid(PlaceholderLocal);
    PlaceholderLabelsValid(PlaceholderHost, PlaceholderTld);
    DotlessDomain(PlaceholderTld);
    DomainCons(PlaceholderHost, PlaceholderTld);
    EmailParts(PlaceholderLocal, PlaceholderHost + ['.'] + PlaceholderTld);
  }

  /** An address with nothing after its `@` is rejected. */
  lemma EmptyDomainRejected(local: string)
    requires ValidLocalPart(local)
    ensures !ValidEmail(local + "@")
  {
    EmailParts(local, "");
    assert local + "@" == local + ['@'] + "";
    SplitOfSeparatorFree("", '.');
    assert !ValidLabel(Split("", '.')[0]);
  }

  /** The record a submission writes to the subscriptions collection (its server timestamp aside). */
  datatype TicketRequest = TicketRequest(
    fullName: string,
    email: string,
    phone: string,
    mpesaMessage: string,
    mpesaCode: string,
    amount: string,
    planName: string,
    planPeriod: string,
    status: string)

  /** The plan's displayed price, when a plan is at hand: what the amount falls back on. */
  function PlanPrice(p: Page): Option<string> {
    if p.planToSubscribe.Some? then Some(p.planToSubscribe.value.price) else None
  }

  /**
   * The record a submission writes, given the amount read from the SMS: it
   * copies the form, carries the code read from the SMS, the plan's name
   * (`General` without one) and the selected period, and starts out pending.
   */
  function RequestOf(p: Page, amount: string): (r: TicketRequest)
    ensures r.fullName == p.form.fullName && r.email == p.form.email && r.phone == p.form.phone
    ensures r.mpesaMessage == p.form.mpesaMessage && r.amount == amount
    ensures r.status == Pending && r.planPeriod == p.selectedPeriod
    ensures r.mpesaCode == ExtractMpesaCode(p.form.mpesaMessage)
    ensures r.mpesaCode == UnknownCode || |r.mpesaCode| == 10
    ensures p.planToSubscribe.Some? && p.planToSubscribe.value.name != "" ==> r.planName == p.planToSubscribe.value.name
    ensures p.planToSubscribe.None? || p.planToSubscribe.value.name == "" ==> r.planName == GeneralPlan
  {
    var f := p.form;
    var plan := p.planToSubscribe;
    var name := if plan.Some? && plan.value.name != "" then plan.value.name else GeneralPlan;
    TicketRequest(f.fullName, f.email, f.phone, f.mpesaMessage, ExtractMpesaCode(f.mpesaMessage), amount,
                  name, p.selectedPeriod, Pending)
  }

  /**
   * The first half of `handleTicketFormSubmit`, as written: mark the page as
   * processing and build the record, whose amount is what `extractAmount`
   * reads from the SMS: the first number in it, or the plan's price.
   */
  function BeginSubmit(p: Page): (out: (Page, TicketRequest))
    ensures out.0 == p.(processing := true)
    ensures out.1 == RequestOf(p, out.1.amount)
    ensures var m := p.form.mpesaMessage;
      (exists i :: 0 <= i < |m| && NumChar(m[i])) ==>
        var q := FirstNumChar(m, 0);
        out.1.amount == RemoveCommas(m[q..CaptureEnd(m, q)]) && AmountText(out.1.amount)
    ensures var m := p.form.mpesaMessage;
      (forall i :: 0 <= i < |m| ==> !NumChar(m[i])) ==> out.1.amount == Fallback(PlanPrice(p))
  {
    (p.(processing := true), RequestOf(p, ExtractAmount(p.form.mpesaMessage, PlanPrice(p))))
  }

  /**
   * The same first half with the amount read as evidently intended: the
   * number after the first `Ksh` or `KES` marker, or the plan's price.
   */
  function BeginSubmitCorrected(p: Page): (out: (Page, TicketRequest))
    ensures out.0 == p.(processing := true)
    ensures out.1 == RequestOf(p, out.1.amount)
    ensures var m := p.form.mpesaMessage;
      (forall k :: 0 <= k <= |m| ==> MatchAt(m, k, CurrencyMarkers).None?) ==>
        out.1.amount == Fallback(PlanPrice(p))
    ensures var m := p.form.mpesaMessage;
      (exists k :: 0 <= k <= |m| && MatchAt(m, k, CurrencyMarkers).Some?) ==> AmountText(out.1.amount)
  {
    (p.(processing := true), RequestOf(p, ExtractPaidAmount(p.form.mpesaMessage, PlanPrice(p))))
  }

  /** The two readings write the same record except, possibly, its amount. */
  lemma CorrectedChangesOnlyAmount(p: Page)
    ensures BeginSubmitCorrected(p).0 == BeginSubmit(p).0
    ensures BeginSubmitCorrected(p).1 == BeginSubmit(p).1.(amount := BeginSubmitCorrected(p).1.amount)
  {
  }

  /**
   * For the example SMS the page shows, the record as written carries the
   * code's digits as the amount; the corrected reading carries the amount paid.
   */
  lemma ExampleTicketAmounts(p: Page, rest: string)
    requires p.form.mpesaMessage == ExampleCode + ExampleConfirmed + ExampleAmount + ExampleSent + ExampleTail + rest
    ensures BeginSubmit(p).1.amount == "12345678" && BeginSubmit(p).1.mpesaCode == "SH12345678"
    ensures BeginSubmitCorrected(p).1.amount == "2099.00"
  {
    var m := p.form.mpesaMessage;
    ExampleIsSample(m, rest);
    SampleAmountAsWritten(m, PlanPrice(p));
    SampleAmountIntended(m, PlanPrice(p));
    SampleCode(m);
  }

  /**
   * The second half: on success the form is cleared and the flow closed; on
   * failure the form stays as typed so the payer can retry. Either way the
   * page stops processing.
   */
  function FinishSubmit(p: Page, stored: bool): (p': Page)
    ensures !p'.processing && p'.selectedPeriod == p.selectedPeriod
    ensures stored ==> p'.form == EmptyForm && !p'.showTicketForm && p'.planToSubscribe.None?
                       && p'.showPaymentInfo == p.showPaymentInfo
    ensures !stored ==> p' == p.(processing := false)
  {
    if stored then p.(form := EmptyForm, showTicketForm := false, planToSubscribe := None, processing := false)
    else p.(processing := false)
  }

  /** `handleCloseModals`: ignored while a submission is in flight; otherwise back to the plan list. */
  function CloseModals(p: Page): (p': Page)
    ensures p.processing ==> p' == p
    ensures !p.processing ==>
      !ModalOpen(p') && p'.planToSubscribe.None? && p'.form == EmptyForm
      && p'.selectedPeriod == p.selectedPeriod && !p'.processing
  {
    if !p.processing then
      p.(showPaymentInfo := false, showTicketForm := false, planToSubscribe := None, form := EmptyForm)
    else p
  }

  /** What the user or the store can do to the page. */
  datatype Event =
    | ChoosePeriod(key: string)
    | Subscribe(plan: Plan)
    | Proceed
    | Edit(field: Field, value: string)
    | Submit
    | Settle(stored: bool)
    | Close

  /** The page after an event, and the record written to the store if the event wrote one. */
  datatype Outcome = Outcome(page: Page, written: Option<TicketRequest>)

  /**
   * An event as the rendered page lets it happen: the period buttons and the
   * plans' subscribe buttons sit under any open modal's overlay, the proceed
   * button is in the payment modal, the form's controls are in the ticket
   * modal and disabled while processing, the browser holds back a submission
   * with an empty required field or an invalid e-mail address, and the store settles only a pending write.
   */
  function Dispatch(p: Page, e: Event): (o: Outcome)
    ensures o.written.Some? ==> e == Submit && TicketFormOpen(p) && !p.processing && o.page.processing
    ensures o.written.Some? ==> FormValid(p.form) && o.written.value.status == Pending
    ensures o.written.Some? ==> o.written.value == BeginSubmit(p).1 && o.page == BeginSubmit(p).0
    ensures e == Submit && TicketFormOpen(p) && !p.processing ==> (o.written.Some? <==> FormValid(p.form))
    ensures !ModalOpen(p) && (e.Proceed? || e.Edit? || e.Submit?) ==> o.page == p
  {
    match e
    case ChoosePeriod(key) =>
      if !ModalOpen(p) && key in PeriodKeys then Outcome(p.(selectedPeriod := key), None)
      else Outcome(p, None)
    case Subscribe(plan) =>
      if !ModalOpen(p) && plan in PlansFor(p.selectedPeriod) then Outcome(SubscribeClick(p, plan), None)
      else Outcome(p, None)
    case Proceed =>
      if PaymentModalOpen(p) then Outcome(ProceedToTicketForm(p), None) else Outcome(p, None)
    case Edit(field, value) =>
      if TicketFormOpen(p) && !p.processing then Outcome(ChangeField(p, field, value), None)
      else Outcome(p, None)
    case Submit =>
      if TicketFormOpen(p) && !p.processing && FormValid(p.form) then
        var (p', request) := BeginSubmit(p);
        Outcome(p', Some(request))
      else Outcome(p, None)
    case Settle(stored) =>
      if p.processing then Outcome(FinishSubmit(p, stored), None) else Outcome(p, None)
    case Close =>
      if ModalOpen(p) then Outcome(CloseModals(p), None) else Outcome(p, None)
  }

  /** Every event keeps the page's invariant. */
  lemma DispatchPreservesInv(p: Page, e: Event)
    requires Inv(p)
    ensures Inv(Dispatch(p, e).page)
  {
  }

  /** While a submission is in flight, another submit writes nothing and closing changes nothing. */
  lemma NoDoubleSubmission(p: Page)
    requires Inv(p) && p.processing
    ensures Dispatch(p, Submit) == Outcome(p, None)
    ensures Dispatch(p, Close) == Outcome(p, None)
  {
  }

  /**
   * Through the page, a written request always names the chosen plan and
   * the period it was chosen under: the `General` fallback cannot occur.
   */
  lemma WrittenRequestNamesPlan(p: Page, e: Event)
    requires Inv(p)
    requires Dispatch(p, e).written.Some?
    ensures var r := Dispatch(p, e).written.value;
      (exists i :: 0 <= i < |PlansFor(r.planPeriod)| && PlansFor(r.planPeriod)[i].name == r.planName)
      && r.planName != GeneralPlan
  {
    var r := Dispatch(p, e).written.value;
    assert r == BeginSubmit(p).1;
    var plans := PlansFor(p.selectedPeriod);
    var plan := p.planToSubscribe.value;
    var i :| 0 <= i < |plans| && plans[i] == plan;
    assert r.planPeriod == p.selectedPeriod && r.planName == plan.name;
    assert plan.name != GeneralPlan by {
      assert i == 0 || i == 1 || i == 2;
    }
  }

  /** A successful submission, once stored, leaves the page as the plan list with a clear form. */
  lemma StoredSubmissionResets(p: Page)
    requires Inv(p) && TicketFormOpen(p) && !p.processing && FormValid(p.form)
    ensures var started := Dispatch(p, Submit).page;
      var done := Dispatch(started, Settle(true)).page;
      !ModalOpen(done) && done.form == EmptyForm && !done.processing
      && done.selectedPeriod == p.selectedPeriod && Inv(done)
  {
  }

  /** A failed submission leaves the form as typed and open, ready to submit again. */
  lemma FailedSubmissionKeepsForm(p: Page)
    requires Inv(p) && TicketFormOpen(p) && !p.processing && FormValid(p.form)
    ensures var started := Dispatch(p, Submit).page;
      var done := Dispatch(started, Settle(false)).page;
      done == p && Dispatch(done, Submit).written.Some?
  {
  }
}

=== FILE: wrappers.dfy ===
/** Optional values and results with an error, as used by every other module. */
module Wrappers {

  /** A value that may be absent: JavaScript's `undefined`/`null` is `None`. */
  datatype Option<+T> = None | Some(value: T) {

    /** The wrapped value, or `default` when absent (JavaScript's `x ?? default`). */
    function GetOr(default: T): T {
      match this
      case Some(v) => v
      case None => default
    }
  }

  /** The outcome of an operation that may throw: `Err` carries what was thrown. */
  datatype Result<+T, +E> = Ok(value: T) | Err(error: E) {

    predicate IsFailure() {
      Err?
    }

    function PropagateFailure<U>(): Result<U, E>
      requires Err?
    {
      Err(error)
    }

    function Extract(): T
      requires Ok?
    {
      value
    }
  }
}
